=== FILE: README.md ===
# generative-trees, modelled in Dafny

This project models the integer and rational skeleton of the procedural tree
generators in generative-trees, a three.js sketchbook. It covers two kinds of
generator.

**Recursive generators.** tree.js, index.js, src/fruit-tree.js and
src/willow-tree.js all share the same `addLayer` recursion:
- A call at `depth` returns at once when `depth === maxDepth`.
- Otherwise it computes `nBranches = (maxDepth - depth) - floor(1.5 * depth * Math.random())`. It forces that to 0 when `depth === maxDepth - 1`.
- It then creates the children one by one. Each child's scale is the parent's times `(0.6, base^depth, 0.6)`. Each child draws three rotation perturbations (x, y, z, in that order), and the call recurses into it at `depth + 1`. tree.js and index.js apply only the z and x perturbations, as Euler increments. src/fruit-tree.js and src/willow-tree.js apply all three with `rotateX`, `rotateY`, `rotateZ`.
- A call that creates no children may instead leave foliage:
  - one leaf when `threshold > Math.random()`; or
  - for the willow, a cluster of 48 leaf clones.
- Beyond how the rotations are applied, the four copies differ in:
  - the height base (0.95 or 1.025);
  - the perturbation spread (1 or 1.1);
  - the leaf threshold (0.7, 1 or 0.8);
  - the foliage style;
  - the root scale;
  - whether a base cylinder is pushed first.

**Layered generators.** src/simple-tree.js and src/pine-tree.js place leaves
in `maxDepth` rings using nested loops. Every per-layer count, radius, height,
scale, tilt and angle is a rational formula.

How the model represents the program:
- `Math.random()` is a function `rng: nat -> real` together with a cursor. Every model reads its draws in the order the JavaScript evaluates them, and returns the cursor after its last draw. The predicate `Draws.Uniform` states the only thing the model assumes about the draws: each one lies in [0, 1).
- The recursion builds an immutable `Branching.Segment` tree. Each segment records its depth, its scale, its perturbation triple, its children and its foliage.
- The flat lists the JavaScript fills while it recurses are listings of that tree:
  - `branchGroup.add` and `branchGeos.push` run before the recursive call, so the branch list is the pre-order listing `Listing.Flatten`;
  - the leaf list is that listing filtered to the segments that carry foliage (`Listing.LeafPieces`).
- Angles are fractions of a full turn, or multiples of pi. Reals are exact.

Modules:
- `Draws` and `Geometry`: the random source, vectors and powers.
- `Branching`: the generic `addLayer` recursion (`AddLayer`, with the child loop `Sprout`), parameterised by a `Variant`.
- `Listing`: the flat lists and counting lemmas about them.
- `Generation`: the shared `generate` entry (root at depth 1) and the scale trends.
- `TreeJs`, `IndexJs`, `FruitTree` and `WillowTree`: the four recursive generators.
- `Layers`, `SimpleTree` and `PineTree`: the layered generators.

Two edge cases of the code, modelled as written:

- **Non-positive `maxDepth`.** `generate` does not validate `maxDepth`. For `maxDepth <= 0`, the first `addLayer` call is not at `maxDepth`. It computes a negative branch count, `(maxDepth - 1) - floor(1.5 * Math.random())`, and the root gets a leaf test. `Branching.AddLayer` models exactly that.
- **`maxDepth == 1`.** The first call has `depth === maxDepth` and returns at once. The root is bare, and no draw is read. `Generation.Grow` states this.

## Model

| member | source | states |
|---|---|---|
| Branching.BranchCount | tree.js:47-49 | The branch count never exceeds `maxDepth - depth`. It is 0 on the terminal layer `maxDepth - 1`. Off that layer it is at least `(maxDepth - depth) - 1.5 * depth`, and it equals `maxDepth - depth` for a zero draw. |
| Branching.BranchCountAntitone | tree.js:47 | A larger count draw never yields more branches. |
| Branching.ShrinkNarrows | tree.js:57-61 | A child of a positive-scale segment keeps a positive scale, and its x and z scales are strictly smaller than its parent's. |
| Branching.ShrinkLowersHeight | tree.js:46-61 | With height base 0.95, a child's y scale lies between 0 and its parent's. |
| Branching.ShrinkKeepsHeight | src/willow-tree.js:109-124 | With height base 1.025, a child's y scale is at least its parent's. |
| Branching.Spread | src/willow-tree.js:129-131 | The perturbation `spread * (Math.random() - 0.5)` lies in `[-spread/2, spread/2)`, which is [-0.55, 0.55) for the willow. |
| Branching.MakeClone | src/willow-tree.js:157-167 | A willow leaf clone has a width jitter in [-1, 1) and a height jitter in [0, 1). Clone `i` is turned by `(i + r - 0.5) / 48` of a full turn. That lies in [(i - 0.5)/48, (i + 0.5)/48): one sector's width, centred on `i/48`. Its material index is in [0, 3]. |
| Branching.Clones | src/willow-tree.js:155-170 | A cluster holds exactly as many clones as the loop runs. Clone `t` reads its four draws at `k + 4t`. |
| Branching.EmitFoliage | tree.js:87-107 | A childless call leaves foliage exactly when the threshold beats its draw. That foliage is one leaf for the single-leaf variants and exactly 48 clones for the willow. The cursor advances past every draw read. |
| Branching.AddLayer | tree.js:41-109 | A call at `maxDepth` makes nothing and draws nothing. Otherwise: the call makes `max(nBranches, 0)` children, and none on the layer `maxDepth - 1`. Foliage appears only on a childless segment, exactly when the leaf draw loses to the threshold. Every child is at `depth + 1`, has the shrunk scale and an in-range perturbation, and is itself a valid subtree. With threshold 1, every childless descendant carries foliage. |
| Branching.Sprout | tree.js:52-86 | The child loop yields exactly `nBranches` children, each at `depth + 1`, with the shrunk scale, an in-range perturbation and a valid subtree. |
| Geometry.PowAtLeastOne | src/willow-tree.js:109 | `base^depth >= 1` for a base of at least 1. |
| Geometry.PowInUnit | tree.js:46 | `base^depth` is in (0, 1] for a base in (0, 1]. |
| Geometry.PowPositive | tree.js:46 | `base^depth` is positive for a positive base. |
| Listing.FlattenCount | tree.js:83-85 | The branch list of a subtree holds its root plus exactly one entry per child created anywhere beneath it. |
| Listing.FlattenAllCount | tree.js:52-86 | A run of sibling subtrees lists one entry per sibling, plus one per child created beneath them. |
| Listing.FlattenFacts | tree.js:41-109 | Every entry of a valid subtree's listing is locally well-shaped. It lies within the root's depth band, keeps a positive scale, and keeps an in-range perturbation. In a leafy tree, every childless entry off `maxDepth` carries foliage. |
| Listing.FlattenAllFacts | tree.js:52-86 | The same facts for the listing of a run of sibling subtrees. |
| Listing.LeavesMatchChildless | index.js:124-140 | When foliage sits exactly on the childless entries, the leaf list is as long as the number of childless entries. |
| Listing.LeavesAtMostChildless | tree.js:87-107 | When foliage sits only on childless entries, each leaf is a childless branch-list entry that carries foliage, and there are at most as many leaves as childless entries. |
| Listing.MeshCount | src/willow-tree.js:155-170 | When every foliage is bare or a 48-clone cluster, the leaf group holds exactly 48 meshes per leafy entry. |
| Listing.MeshMaterials | src/willow-tree.js:166-167 | Every mesh in the leaf group has a material index in [0, 3]. |
| Generation.Grow | tree.js:21-30 | The result is the pre-order listing of a valid tree with a root at depth 1, the given scale and no rotation. Its length is 1 plus the number of created branches. Every branch lies in depth [2, maxDepth - 1], keeps a positive scale and has an in-range perturbation. With threshold 1, every childless entry off `maxDepth` carries foliage. For `maxDepth == 1`, the list is the bare root alone and no draw is read. |
| Generation.RootListing | tree.js:24-30 | The listing facts of `Grow`, for any valid tree rooted at depth 1 with a positive scale. |
| Generation.Footed | src/fruit-tree.js:43-54 | The base cylinder comes first, followed by every branch in order. |
| Generation.LimbsOfFooted | src/fruit-tree.js:43-57 | Removing the base cylinder from the footed list gives back exactly the branch list. |
| Generation.ScaleTrend | tree.js:57-61 | In a valid tree, every child is strictly narrower than its parent. It is never taller with a base of at most 1, and never shorter with a base of at least 1. |
| TreeJs.Generate | tree.js:21-39 | The branch group holds the root at depth 1 with scale (1, 5, 1), plus one entry per created branch, each of depth [2, maxDepth - 1]. Every call creates at most `maxDepth - depth` children. A segment at `maxDepth - 1` or deeper has no children and at most one leaf; one at `maxDepth` has no leaf. Every leaf sits on a childless branch, so leaves number at most the childless branches. |
| TreeJs.Tapering | tree.js:45-61 | Every tree.js branch is narrower than its parent and never taller. |
| IndexJs.Generate | index.js:60-74 | The tree group holds the root plus one entry per created branch. Every childless segment off `maxDepth` holds exactly one leaf. For `maxDepth != 1`, the leaf count equals the number of childless segments, root included. For `maxDepth == 1`, there is one segment and no leaf. |
| IndexJs.FoliageOnChildless | index.js:124-140 | For `maxDepth != 1`, a segment carries a leaf if and only if it has no children. |
| FruitTree.Rgba | src/fruit-tree.js:75 | Each vertex contributes four colour entries, the last of which is alpha 1. |
| FruitTree.LeafColors | src/fruit-tree.js:70-77 | The colour array of `m` leaves has `4 * m * vertexCount` entries. |
| FruitTree.ColorAttribute | src/fruit-tree.js:70-79 | The nested colour loop builds exactly the colour array of its leaves, one draw per leaf. The array has `4 * leafCount * vertexCount` entries. |
| FruitTree.Generate | src/fruit-tree.js:38-89 | The branch list is the base cylinder, then the root (depth 1, scale (1, 5, 1)), then one entry per created branch, so it has 2 plus the number of created branches. The returned segment tree is exactly the tree `Grow` builds from the first draw on, and it is valid. The limbs are its pre-order listing. So each child is one layer deeper than its parent and has the parent's scale times (0.6, 0.95^depth, 0.6). Every branch lies in depth [2, maxDepth - 1]. Every child is narrower than its parent and never taller. The list upholds the per-call branch bounds and keeps positive scales. The leaf geometries are exactly the listed branches that carry a leaf, in branch-list order, so each sits on a childless branch and there are at most as many as childless branches. The colour array has `4 * leaves * vertexCount` entries. It is coloured from the draws that follow the recursion's last draw, one per leaf, and the cursor ends past them. |
| FruitTree.Branches | src/fruit-tree.js:91-150 | Every fruit-tree call creates at most `maxDepth - depth` children, none on the layer `maxDepth - 1`. A segment at `maxDepth` has no leaf, and every scale stays positive. Each leaf geometry sits on a childless branch. Every child is narrower than its parent and never taller. |
| WillowTree.LineWidths | src/willow-tree.js:40-47 | There are four material line widths. Width `i` is `0.2 + (draw_i - 0.5) * 0.05`, which lies in [0.175, 0.225). |
| WillowTree.Build | src/willow-tree.js:40-80 | The four line widths are the constructor's first four draws, each `0.2 + (draw_i - 0.5) * 0.05` in [0.175, 0.225). The returned segment tree is exactly the tree `Grow` builds from the draws after those four, and the cursor ends where that recursion ends. The branch list is the base cylinder, then the root (depth 1, scale (1, 3, 1)), then one entry per created branch. The limbs are exactly the pre-order listing of the returned segment tree, which is valid. So each child is one layer deeper than its parent and has the parent's scale times (0.6, 1.025^depth, 0.6). Every branch lies in depth [2, maxDepth - 1]. Every child is narrower than its parent and never shorter. Every entry holds 0 or 48 leaf clones, and only when it is childless. Every perturbation lies in [-0.55, 0.55). The leaf group is exactly the clones of the listed entries, in branch-list order: 48 per leafy entry, each with a valid material index. |
| WillowTree.WillowPieces | src/willow-tree.js:104-188 | Every willow call creates at most `maxDepth - depth` children, none on the layer `maxDepth - 1`. An entry holds 0 or 48 clones, only when childless and never at `maxDepth`. Every perturbation lies in [-0.55, 0.55). The leaf group holds 48 meshes per leafy entry, each with a material index in [0, 3]. |
| WillowTree.ClusterPieces | src/willow-tree.js:143-187 | Every willow entry is bare or holds a full cluster of well-ranged clones, and its perturbation lies in [-0.55, 0.55). |
| WillowTree.Drooping | src/willow-tree.js:108-124 | Every willow branch is narrower than its parent and never shorter. |
| Layers.BeforeClosedForm | src/simple-tree.js:61-62 | The leaves in the layers below `i` number `i * (2 maxDepth - i + 1) / 2`. |
| Layers.Triangular | src/simple-tree.js:61-80 | The leaves over all `maxDepth` layers number `maxDepth * (maxDepth + 1) / 2`. |
| Layers.Sector | src/simple-tree.js:66 | Shape `j` of `n` lies in the sector [j/n, (j+1)/n) of a full turn. |
| Layers.SectorsDisjoint | src/simple-tree.js:66 | Two distinct shapes of a ring never share a sector: the earlier shape has the smaller angle. |
| SimpleTree.BranchGeos | src/simple-tree.js:41-54 | There are exactly three branch geometries: the full trunk and two branches scaled by 0.3. The first small branch sits higher than the second. |
| SimpleTree.Shape | src/simple-tree.js:66-72 | The rotation amount of leaf `j` of layer `i` lies in its own sector of the turn. Its radius and height are its layer's pre-scale ring radius and height. Its x and z scale factors lie in [0.875, 1.125) and its y scale is exactly 1. |
| SimpleTree.RadiusRange | src/simple-tree.js:63 | Every layer's ring radius lies in [0, 5), and the last layer's is 0. This includes a one-layer tree. |
| SimpleTree.HeightRange | src/simple-tree.js:57-74 | Every layer's ring height lies in [14, 30), and the first layer's is exactly 14. |
| SimpleTree.RadiusShrinks | src/simple-tree.js:63 | The ring radius is non-negative, strictly decreasing in the layer, and zero on the last layer. |
| SimpleTree.HeightRises | src/simple-tree.js:57-74 | The ring height strictly increases with the layer and stays in [14, 30). |
| SimpleTree.Generate | src/simple-tree.js:39-81 | There are three branch geometries and `maxDepth * (maxDepth + 1) / 2` leaves. Leaf `j` of layer `i` sits at position `Before(i) + j` and is built from its own three draws. |
| PineTree.ShapeCount | src/pine-tree.js:48 | Layer `i` holds between `maxDepth - i + 5` and `maxDepth - i + 9` shapes. |
| PineTree.Tilt | src/pine-tree.js:61 | The tilt about z, in units of pi, lies in [5/8, 19/24). |
| PineTree.Shape | src/pine-tree.js:51-63 | A shape carries its layer, index and layer size. When the layer size is one the count draw can produce, the shape is in range: correct scale and lift for its layer, its own sector, and an in-range tilt. |
| PineTree.WidthScaleRange | src/pine-tree.js:52-56 | Every layer's x/z scale lies in (0.5, 1], and the first layer's is 1. |
| PineTree.HeightScaleRange | src/pine-tree.js:51-54 | Every layer's y scale lies in (0.035, 0.35], and the first layer's is 0.35. |
| PineTree.LiftRange | src/pine-tree.js:42-63 | Every layer's lift lies in (105/8, 35], and the last layer's is exactly 35. This includes a one-layer tree. |
| PineTree.WidthScaleFalls | src/pine-tree.js:52-56 | The x/z scale lies in (0.5, 1] and strictly decreases with the layer. |
| PineTree.HeightScaleFalls | src/pine-tree.js:51-54 | The y scale lies in (0.035, 0.35] and strictly decreases with the layer. |
| PineTree.LiftRises | src/pine-tree.js:42-63 | The lift strictly increases with the layer and equals the trunk height 35 on the last layer. |
| PineTree.PushClone | src/pine-tree.js:50-65 | Clone `j` of layer `i` is appended to the clones before it, and nothing before it changes. It takes its angle from the draw at the cursor and its tilt from the draw after, and the cursor moves past both. |
| PineTree.Ring | src/pine-tree.js:48-66 | Layer `i` reads its count draw, then appends between `maxDepth - i + 5` and `maxDepth - i + 9` clones. The clones before it do not change. Every new clone is in layer `i` and built from its own draws. The new clones open at index 0, follow one another, and end with the layer's last clone. |
| PineTree.Extend | src/pine-tree.js:46-68 | Appending a complete layer after the layers below it keeps the whole list in loop order, with every clone built from its own draws. |
| PineTree.Generate | src/pine-tree.js:39-69 | The total shape count lies between `T + 5 maxDepth` and `T + 9 maxDepth`, where T is the triangular number `maxDepth * (maxDepth + 1) / 2`. The shapes come layer by layer, index by index, from layer 0 index 0 to the last index of layer `maxDepth - 1`. Shape `t` of layer `i` is in range and built from its own draws. Its angle is `(index + r) / count` of a turn for the draw at `k + i + 1 + 2t`. Its tilt is `5/8 + (i/maxDepth)/12 + r/12` of pi for the next draw. The first shape of a layer fixes the layer's size from the count draw just before it, `maxDepth - i + 5 + floor(5 r)`. The generator reads one count draw per layer and two draws per shape. |

## Left out

- Rendering. The model leaves out three.js meshes, materials, shaders, `update`/`render`, geometry merging, bounding boxes, `mergeVertices` and scene insertion. They are library calls with no logic of the repository's own.
- Transforms. Positions, translations, world matrices and the trig offsets (`Math.sin`/`Math.cos` of a rotation) are not computed. A branch records its scale and its perturbation triple only.
- Rotation order. The model does not record how each copy applies its rotations (Euler increments of z then x in tree.js and index.js; `rotateX/Y/Z` in the other two).
- Unused y rotation. tree.js and index.js draw `rotation.y` but never apply it. The model keeps that draw only so that later draws line up.
- Simple-tree leaf placement. src/simple-tree.js:74-75 translates each leaf to its ring point and then scales the geometry about the origin. The leaf therefore ends up at `(sx * R cos a, H, -sz * R sin a)`. `SimpleTree.Shape` records the rotation amount `a` and the pre-scale radius `R`, not that distorted position. When `sx != sz`, the placed leaf's true angle can fall outside its sector.
- Logging. The `console.log` calls at index.js:120 and src/fruit-tree.js:80 print and change nothing.
- Merging an empty list. With no leaf geometry pushed, src/fruit-tree.js:61 merges an empty list and uses the result at lines 64 and 79. This happens whenever no leaf draw falls below 0.7, and always for `maxDepth == 1`, where no leaf test runs. src/simple-tree.js:24 and src/pine-tree.js:24 do the same for `maxDepth <= 0`. The merge helper belongs to three.js, outside this repository. The model assumes the merge succeeds, so the fruit generator returns an empty colour array.
- The willow leaf line. The `Math.sqrt` vertex profile and the `Math.sin` width function are floating-point geometry, not structure.
- Clone scale: `WillowTree.Build` records each willow clone's two random jitters, but not the part of its scale that depends on `child.position.y`. The clone's position is a world-transform result, which the model does not compute.
- d3 colour interpolation. The warm colour scale is a parameter `palette` of the fruit generator.
- Sphere vertex count. The vertex count of the fruit's leaf sphere is a parameter, because it is a three.js geometry fact.
- Exact reals. All arithmetic is on exact reals and integers, so floating-point rounding is not modelled.
- Random numbers. `Math.random()` itself is not modelled: the draws are an input, and each one lies in [0, 1).
- Pine trunk. The pine and simple trees' constructors each push one trunk cylinder. The simple tree's trunk is the first of its three branch geometries; the pine's trunk is not separately modelled.
- Input validation. No invalid-argument error is modelled, because the code has none. For a `maxDepth` of 0 or less, the recursive generators give the root a leaf test and the layered generators produce no leaves.
- Application code. src/scene-manager.js (viewports, orbit controls, regeneration) and controls/first_person_controls.js (input) are application glue, not part of this model.

=== FILE: branching.dfy ===
/** The recursive branch subdivision shared by the four `addLayer` copies
    (tree.js, index.js, src/fruit-tree.js, src/willow-tree.js).

    One call of `addLayer(child, depth, maxDepth)`:
      - returns at once when `depth == maxDepth`;
      - otherwise draws `r` and computes
        `nBranches = (maxDepth - depth) - floor(1.5 * depth * r)`,
        forced to 0 when `depth == maxDepth - 1`;
      - for each of `nBranches` children: scales the parent by
        (0.6, base^depth, 0.6), draws three rotation perturbations, records
        the branch and recurses at `depth + 1`;
      - with no children: draws once more and, when the draw is below the
        variant's threshold, emits a leaf (or a cluster of leaf clones).

    The copies differ only in the constants gathered in `Variant`. The model
    returns an immutable segment tree; the flat branch list the source
    accumulates is its pre-order listing, `Flatten`. */
module Branching {
  import opened Draws
  import opened Geometry

  /** Width factor applied to every child, `widthScale = 0.6`. */
  const WidthScale: real := 0.6
  /** Factor in front of `depth * Math.random()` in the branch count. */
  const BranchRate: real := 1.5
  /** Number of leaf materials a clone may be given. */
  const MaterialCount: nat := 4

  /** What one successful leaf draw emits. */
  datatype LeafStyle =
    | SingleLeaf          // one leaf mesh or geometry
    | Cluster(size: nat)  // `size` clones, four draws each

  /** The constants that tell the copies of `addLayer` apart. */
  datatype Variant = Variant(
    heightBase: real,  // child height factor is heightBase^depth
    spread: real,      // rotation perturbation is spread * (r - 0.5)
    leafChance: real,  // a leaf is emitted when leafChance > r
    style: LeafStyle)

  /** Constants every variant of the source satisfies. */
  predicate WellFormed(v: Variant) {
    v.heightBase > 0.0 && v.spread > 0.0
  }

  /** One clone of a leaf cluster: the random parts of its transform.
      `widthJitter` is added to its x scale, `heightJitter` to its y scale, `turn`
      is its rotation about x as a fraction of a full turn, `material`
      indexes the leaf materials. */
  datatype Clone = Clone(widthJitter: real, heightJitter: real, turn: real, material: int)

  /** What a childless call left on its segment. */
  datatype Foliage = Bare | Leaf | Tuft(clones: seq<Clone>)

  /** A branch segment: the depth of the call that received it, its scale,
      its three rotation draws `spread * (Math.random() - 0.5)` about x, y
      and z in draw order, its children in creation order and its foliage.
      tree.js and index.js draw the y perturbation but never apply it; it
      is kept so that later draws line up. */
  datatype Segment = Segment(depth: nat, scale: Vec3, tilt: Vec3, children: seq<Segment>, foliage: Foliage)

  /** What one call of `addLayer` adds under its segment, and the cursor
      into the draws after it. */
  datatype Growth = Growth(children: seq<Segment>, foliage: Foliage, next: nat)

  /** One entry of the flat branch list: a segment without its subtree. */
  datatype Piece = Piece(depth: nat, scale: Vec3, tilt: Vec3, childCount: nat, foliage: Foliage)

  // ---------------------------------------------------------------------
  // The arithmetic of one call

  /** `nBranches` after the terminal-layer clamp, for the count draw `r`. */
  function BranchCount(depth: nat, maxDepth: int, r: real): (n: int)
    requires 0.0 <= r < 1.0
    ensures n <= maxDepth - depth
    ensures depth == maxDepth - 1 ==> n == 0
    ensures depth != maxDepth - 1 ==>
              n as real >= (maxDepth - depth) as real - BranchRate * depth as real
    ensures depth != maxDepth - 1 && r == 0.0 ==> n == maxDepth - depth
  {
    if depth == maxDepth - 1 then 0
    else
      var x := BranchRate * depth as real * r;
      assert x <= BranchRate * depth as real by {
        assert BranchRate * depth as real >= 0.0;
        ScaleBelow(BranchRate * depth as real, r, 1.0);
      }
      (maxDepth - depth) - x.Floor
  }

  /** Multiplying by a non-negative factor keeps an order. */
  lemma ScaleBelow(a: real, b: real, c: real)
    requires a >= 0.0 && b <= c
    ensures a * b <= a * c
  {
  }

  /** A larger count draw never yields more branches. */
  lemma BranchCountAntitone(depth: nat, maxDepth: int, r1: real, r2: real)
    requires 0.0 <= r1 <= r2 < 1.0
    ensures BranchCount(depth, maxDepth, r2) <= BranchCount(depth, maxDepth, r1)
  {
    var a := BranchRate * depth as real;
    ScaleBelow(a, r1, r2);
    FloorMonotone(a * r1, a * r2);
  }

  lemma FloorMonotone(x: real, y: real)
    requires x <= y
    ensures x.Floor <= y.Floor
  {
    assert x.Floor as real <= x;
    assert y < y.Floor as real + 1.0;
  }

  /** The scale of every child of a segment at `depth` with scale `p`. */
  function Shrink(v: Variant, p: Vec3, depth: nat): Vec3 {
    Vec3(p.x * WidthScale, p.y * Pow(v.heightBase, depth), p.z * WidthScale)
  }

  /** A positive scale stays positive and strictly narrows. */
  lemma ShrinkNarrows(v: Variant, p: Vec3, depth: nat)
    requires WellFormed(v) && Positive(p)
    ensures Positive(Shrink(v, p, depth))
    ensures Shrink(v, p, depth).x < p.x && Shrink(v, p, depth).z < p.z
  {
    PowPositive(v.heightBase, depth);
  }

  /** With a base of at least one, a child is never shorter than its parent. */
  lemma ShrinkKeepsHeight(v: Variant, p: Vec3, depth: nat)
    requires v.heightBase >= 1.0 && p.y >= 0.0
    ensures Shrink(v, p, depth).y >= p.y
  {
    PowAtLeastOne(v.heightBase, depth);
    ScaleBelow(p.y, 1.0, Pow(v.heightBase, depth));
  }

  /** With a base in (0, 1], a child is never taller than its parent. */
  lemma ShrinkLowersHeight(v: Variant, p: Vec3, depth: nat)
    requires 0.0 < v.heightBase <= 1.0 && p.y >= 0.0
    ensures 0.0 <= Shrink(v, p, depth).y <= p.y
  {
    var f := Pow(v.heightBase, depth);
    PowInUnit(v.heightBase, depth);
    ScaleBelow(p.y, 0.0, f);
    ScaleBelow(p.y, f, 1.0);
    assert Shrink(v, p, depth).y == p.y * f;
  }

  /** The rotation perturbation `spread * (Math.random() - 0.5)`. */
  function Spread(v: Variant, r: real): (a: real)
    requires WellFormed(v) && 0.0 <= r < 1.0
    ensures -0.5 * v.spread <= a < 0.5 * v.spread
  {
    var c := Centered(r);
    ScaleBelow(v.spread, -0.5, c);
    assert v.spread * c < v.spread * 0.5 by {
      assert v.spread * 0.5 - v.spread * c == v.spread * (0.5 - c);
    }
    v.spread * c
  }

  /** A perturbation triple each of whose components `Spread` can produce. */
  predicate Tilted(v: Variant, t: Vec3) {
    && -0.5 * v.spread <= t.x < 0.5 * v.spread
    && -0.5 * v.spread <= t.y < 0.5 * v.spread
    && -0.5 * v.spread <= t.z < 0.5 * v.spread
  }

  // ---------------------------------------------------------------------
  // Leaves

  /** The ranges the four draws of clone `i` of `size` put its fields in. */
  predicate CloneOk(size: nat, i: nat, c: Clone) {
    && -1.0 <= c.widthJitter < 1.0
    && 0.0 <= c.heightJitter < 1.0
    && size > 0
    && (i as real - 0.5) / size as real <= c.turn < (i as real + 0.5) / size as real
    && 0 <= c.material < MaterialCount
  }

  /** Clone `i` of a cluster of `size`, from the four draws at `k`. */
  function MakeClone(size: nat, i: nat, rng: Rng, k: nat): (c: Clone)
    requires Uniform(rng) && i < size
    ensures CloneOk(size, i, c)
  {
    var turn := (i as real + Centered(rng(k + 2))) / size as real;
    assert (i as real - 0.5) / size as real <= turn < (i as real + 0.5) / size as real by {
      DivMonotone(i as real - 0.5, i as real + Centered(rng(k + 2)), size as real);
      DivStrict(i as real + Centered(rng(k + 2)), i as real + 0.5, size as real);
    }
    Clone(2.0 * Centered(rng(k)), rng(k + 1), turn, (rng(k + 3) * MaterialCount as real).Floor)
  }

  lemma DivMonotone(a: real, b: real, d: real)
    requires a <= b && d > 0.0
    ensures a / d <= b / d
  {
    assert b / d - a / d == (b - a) / d;
  }

  lemma DivStrict(a: real, b: real, d: real)
    requires a < b && d > 0.0
    ensures a / d < b / d
  {
    assert b / d - a / d == (b - a) / d;
  }

  /** Clones `i` .. `size - 1` of a cluster, four draws each from `k` on. */
  function Clones(size: nat, i: nat, rng: Rng, k: nat): (cs: seq<Clone>)
    requires Uniform(rng) && i <= size
    decreases size - i
    ensures |cs| == size - i
    ensures forall t :: 0 <= t < |cs| ==> cs[t] == MakeClone(size, i + t, rng, k + 4 * t)
  {
    if i == size then []
    else [MakeClone(size, i, rng, k)] + Clones(size, i + 1, rng, k + 4)
  }

  /** Foliage a variant can produce. */
  predicate FoliageOk(v: Variant, f: Foliage) {
    match f
    case Bare => true
    case Leaf => v.style == SingleLeaf
    case Tuft(cs) =>
      && v.style == Cluster(|cs|)
      && forall t :: 0 <= t < |cs| ==> CloneOk(|cs|, t, cs[t])
  }

  /** Number of leaf meshes (or geometries) a foliage adds to the scene. */
  function LeafMeshes(f: Foliage): nat {
    match f
    case Bare => 0
    case Leaf => 1
    case Tuft(cs) => |cs|
  }

  /** The leaf branch of a childless call, starting at the leaf-test draw `k`.
      Returns the foliage and the cursor after it. */
  function EmitFoliage(v: Variant, rng: Rng, k: nat): (r: (Foliage, nat))
    requires Uniform(rng)
    ensures r.0 != Bare <==> v.leafChance > rng(k)
    ensures FoliageOk(v, r.0)
    ensures r.1 == k + 1 + (if r.0.Tuft? then 4 * |r.0.clones| else 0)
    ensures v.style.Cluster? && r.0 != Bare ==> LeafMeshes(r.0) == v.style.size
    ensures v.style == SingleLeaf ==> LeafMeshes(r.0) <= 1
  {
    if v.leafChance > rng(k) then
      match v.style
      case SingleLeaf => (Leaf, k + 1)
      case Cluster(n) => (Tuft(Clones(n, 0, rng, k + 1)), k + 1 + 4 * n)
    else (Bare, k + 1)
  }

  // ---------------------------------------------------------------------
  // The shape every generated segment has

  /** What one call can leave on its segment: children only below the
      terminal layer, at most `maxDepth - depth` of them, foliage only on a
      childless segment, nothing at `maxDepth`. */
  predicate LocalOk(v: Variant, maxDepth: int, depth: int, childCount: nat, foliage: Foliage) {
    && (childCount > 0 ==> foliage == Bare && depth < maxDepth - 1 && childCount <= maxDepth - depth)
    && (depth == maxDepth ==> foliage == Bare)
    && FoliageOk(v, foliage)
  }

  predicate PieceOk(v: Variant, maxDepth: int, p: Piece) {
    LocalOk(v, maxDepth, p.depth, p.childCount, p.foliage)
  }

  /** The invariant of a generated subtree: every segment is locally
      well-shaped and every child sits one layer deeper, has the parent's
      scale shrunk by (0.6, base^depth, 0.6) and a perturbation in range. */
  predicate Valid(v: Variant, maxDepth: int, s: Segment)
    decreases s
  {
    && LocalOk(v, maxDepth, s.depth, |s.children|, s.foliage)
    && forall c <- s.children ::
         && c.depth == s.depth + 1
         && c.scale == Shrink(v, s.scale, s.depth)
         && Tilted(v, c.tilt)
         && Valid(v, maxDepth, c)
  }

  /** Every childless segment off the `maxDepth` layer carries foliage. */
  predicate Leafy(maxDepth: int, s: Segment)
    decreases s
  {
    && (s.depth != maxDepth && s.children == [] ==> s.foliage != Bare)
    && forall c <- s.children :: Leafy(maxDepth, c)
  }

  // ---------------------------------------------------------------------
  // The recursion

  /** `addLayer` for a segment at `depth` with scale `scale`, reading draws
      from `k` on. */
  function AddLayer(v: Variant, rng: Rng, depth: nat, maxDepth: int, scale: Vec3, k: nat): (g: Growth)
    requires Uniform(rng) && WellFormed(v)
    decreases if depth < maxDepth then maxDepth - depth else 0, 1, 0
    ensures k <= g.next
    ensures depth == maxDepth ==> g == Growth([], Bare, k)
    ensures depth != maxDepth ==>
              |g.children| == (var n := BranchCount(depth, maxDepth, rng(k)); if n > 0 then n else 0)
    ensures g.children != [] ==> depth < maxDepth - 1 && g.foliage == Bare
    ensures LocalOk(v, maxDepth, depth, |g.children|, g.foliage)
    ensures depth != maxDepth && g.children == [] ==> (g.foliage != Bare <==> v.leafChance > rng(k + 1))
    ensures forall c <- g.children ::
              && c.depth == depth + 1
              && c.scale == Shrink(v, scale, depth)
              && Tilted(v, c.tilt)
              && Valid(v, maxDepth, c)
    ensures v.leafChance >= 1.0 ==> forall c <- g.children :: Leafy(maxDepth, c)
  {
    if depth == maxDepth then Growth([], Bare, k)
    else
      var n := BranchCount(depth, maxDepth, rng(k));
      if n > 0 then
        var (kids, next) := Sprout(v, rng, depth, maxDepth, scale, n, k + 1);
        Growth(kids, Bare, next)
      else
        var (f, next) := EmitFoliage(v, rng, k + 1);
        Growth([], f, next)
  }

  /** The `for` loop of `addLayer`: the last `remaining` children of a
      segment at `depth`, each drawing three perturbations and then
      recursing before the next child is made. */
  function Sprout(v: Variant, rng: Rng, depth: nat, maxDepth: int, scale: Vec3, remaining: nat, k: nat)
    : (r: (seq<Segment>, nat))
    requires Uniform(rng) && WellFormed(v)
    requires depth < maxDepth
    decreases maxDepth - depth, 0, remaining
    ensures k <= r.1
    ensures |r.0| == remaining
    ensures forall c <- r.0 ::
              && c.depth == depth + 1
              && c.scale == Shrink(v, scale, depth)
              && Tilted(v, c.tilt)
              && Valid(v, maxDepth, c)
    ensures v.leafChance >= 1.0 ==> forall c <- r.0 :: Leafy(maxDepth, c)
  {
    if remaining == 0 then ([], k)
    else
      var tilt := Vec3(Spread(v, rng(k)), Spread(v, rng(k + 1)), Spread(v, rng(k + 2)));
      var s := Shrink(v, scale, depth);
      var g := AddLayer(v, rng, depth + 1, maxDepth, s, k + 3);
      var c := Segment(depth + 1, s, tilt, g.children, g.foliage);
      var (rest, next) := Sprout(v, rng, depth, maxDepth, scale, remaining - 1, g.next);
      ([c] + rest, next)
  }
}

=== FILE: draws.dfy ===
/** The ambient random source of the generators, made explicit.

    Every generator reads `Math.random()` in a fixed evaluation order. The
    model replaces that global source by a stream `rng` of draws and a cursor
    `k`: the call that would read the next random value reads `rng(k)` and
    hands `k + 1` on. */
module Draws {

  /** The values the random source returns, in the order they are read. */
  type Rng = nat -> real

  /** Every draw lies in the half-open unit interval, as `Math.random` promises. */
  ghost predicate Uniform(rng: Rng) {
    forall i: nat :: 0.0 <= rng(i) < 1.0
  }

  /** A draw recentred on zero, `Math.random() - 0.5`. */
  function Centered(r: real): (c: real)
    requires 0.0 <= r < 1.0
    ensures -0.5 <= c < 0.5
    ensures c + 0.5 == r
  {
    r - 0.5
  }
}

=== FILE: fruit_tree.dfy ===
/** src/fruit-tree.js: the `FruitTree` class. `generate` pushes a base
    cylinder of height 1.5 and the root branch of scale (1, 5, 1), recurses
    from depth 1 with height factor 0.95^depth, leaves one leaf geometry
    when `0.7 > Math.random()`, and afterwards gives every leaf geometry a
    random colour repeated on each of its vertices. */
module FruitTree {
  import opened Draws
  import opened Geometry
  import opened Branching
  import opened Listing
  import opened Generation

  /** fruit-tree.js's constants: base 0.95, perturbations
      `Math.random() - 0.5`, leaf threshold 0.7, one leaf geometry. */
  const Config: Variant := Variant(0.95, 1.0, 0.7, SingleLeaf)
  const RootScale: Vec3 := Vec3(1.0, 5.0, 1.0)
  const BaseHeight: real := 1.5
  /** Entries per vertex in the colour attribute: r, g, b and alpha. */
  const ColorItemSize: nat := 4

  /** The segment tree the recursion grew, the branch and leaf geometry
      lists, the flat colour array, and the cursor after the last draw. */
  datatype Fruit = Fruit(root: Segment, branchGeos: seq<Geo>, leafGeos: seq<Piece>, colors: seq<real>, next: nat)

  /** One vertex's colour entries, `color.r, color.g, color.b, 1`. */
  function Rgba(c: Vec3): (q: seq<real>)
    ensures |q| == ColorItemSize && q[3] == 1.0
  {
    [c.x, c.y, c.z, 1.0]
  }

  /** `n` copies of `q` one after the other. */
  function Repeat(q: seq<real>, n: nat): (r: seq<real>)
    ensures |r| == |q| * n
  {
    if n == 0 then [] else Repeat(q, n - 1) + q
  }

  /** The colour array of the first `m` leaf geometries: leaf `i` takes the
      colour `palette` gives draw `k + i`, on each of its `vertexCount`
      vertices. `palette` stands for the warm colour interpolation. */
  function LeafColors(palette: real -> Vec3, rng: Rng, k: nat, m: nat, vertexCount: nat): (r: seq<real>)
    ensures |r| == ColorItemSize * m * vertexCount
  {
    if m == 0 then []
    else
      var r := LeafColors(palette, rng, k, m - 1, vertexCount) + Repeat(Rgba(palette(rng(k + m - 1))), vertexCount);
      assert |r| == ColorItemSize * (m - 1) * vertexCount + ColorItemSize * vertexCount;
      r
  }

  /** The colour loop of `generate`: one draw per leaf geometry, one
      quadruple per vertex. */
  method ColorAttribute(leafCount: nat, vertexCount: nat, palette: real -> Vec3, rng: Rng, k: nat)
    returns (colors: seq<real>, next: nat)
    ensures colors == LeafColors(palette, rng, k, leafCount, vertexCount)
    ensures |colors| == ColorItemSize * leafCount * vertexCount
    ensures next == k + leafCount
  {
    colors := [];
    var i := 0;
    while i < leafCount
      invariant i <= leafCount
      invariant colors == LeafColors(palette, rng, k, i, vertexCount)
    {
      var color := palette(rng(k + i));
      var j := 0;
      while j < vertexCount
        invariant j <= vertexCount
        invariant colors == LeafColors(palette, rng, k, i, vertexCount) + Repeat(Rgba(color), j)
      {
        colors := colors + Rgba(color);
        j := j + 1;
      }
      i := i + 1;
    }
    next := k + leafCount;
  }

  /** `FruitTree.generate(scene, maxDepth)` on the draws `rng`, for a leaf
      sphere of `vertexCount` vertices. */
  method Generate(maxDepth: int, rng: Rng, vertexCount: nat, palette: real -> Vec3) returns (f: Fruit)
    requires Uniform(rng)
    ensures |f.branchGeos| == 2 + ChildSum(Limbs(f.branchGeos))
    ensures f.branchGeos[0] == Footing(BaseHeight) && |Limbs(f.branchGeos)| == |f.branchGeos| - 1
    ensures Limbs(f.branchGeos)[0].depth == 1 && Limbs(f.branchGeos)[0].scale == RootScale
    ensures f.root == Grow(Config, maxDepth, RootScale, rng, 0).root
    ensures Valid(Config, maxDepth, f.root) && Limbs(f.branchGeos) == Flatten(f.root)
    ensures forall i :: 1 <= i < |Limbs(f.branchGeos)| ==> 2 <= Limbs(f.branchGeos)[i].depth <= maxDepth - 1
    ensures Narrowing(f.root) && NeverTaller(f.root)
    ensures forall p <- Limbs(f.branchGeos) ::
              && (p.childCount > 0 ==> p.childCount <= maxDepth - p.depth && p.foliage == Bare)
              && (p.depth == maxDepth - 1 ==> p.childCount == 0)
              && (p.depth == maxDepth ==> p.foliage == Bare)
              && Positive(p.scale)
    ensures f.leafGeos == LeafPieces(Limbs(f.branchGeos))
    ensures |f.leafGeos| <= Childless(Limbs(f.branchGeos))
    ensures forall p <- f.leafGeos :: p in Limbs(f.branchGeos) && p.childCount == 0 && p.foliage == Leaf
    ensures |f.colors| == ColorItemSize * |f.leafGeos| * vertexCount
    ensures f.next == Grow(Config, maxDepth, RootScale, rng, 0).next + |f.leafGeos|
    ensures f.colors == LeafColors(palette, rng, f.next - |f.leafGeos|, |f.leafGeos|, vertexCount)
  {
    var g := Grow(Config, maxDepth, RootScale, rng, 0);
    var leafGeos := LeafPieces(g.pieces);
    var colors, next := ColorAttribute(|leafGeos|, vertexCount, palette, rng, g.next);
    f := Fruit(g.root, Footed(BaseHeight, g.pieces), leafGeos, colors, next);
    Assembled(maxDepth, rng, f);
    LeafList(maxDepth, rng, f);
  }

  /** The branch geometry of a fruit tree assembled from the recursion on
      `rng`: the base cylinder, then exactly the listing of the valid tree
      the recursion grew, each entry within its call's bounds. */
  lemma Assembled(maxDepth: int, rng: Rng, f: Fruit)
    requires Uniform(rng)
    requires f.root == Grow(Config, maxDepth, RootScale, rng, 0).root
    requires f.branchGeos == Footed(BaseHeight, Grow(Config, maxDepth, RootScale, rng, 0).pieces)
    requires f.leafGeos == LeafPieces(Grow(Config, maxDepth, RootScale, rng, 0).pieces)
    ensures |f.branchGeos| == 2 + ChildSum(Limbs(f.branchGeos))
    ensures f.branchGeos[0] == Footing(BaseHeight) && |Limbs(f.branchGeos)| == |f.branchGeos| - 1
    ensures Limbs(f.branchGeos)[0].depth == 1 && Limbs(f.branchGeos)[0].scale == RootScale
    ensures Valid(Config, maxDepth, f.root) && Limbs(f.branchGeos) == Flatten(f.root)
    ensures forall i :: 1 <= i < |Limbs(f.branchGeos)| ==> 2 <= Limbs(f.branchGeos)[i].depth <= maxDepth - 1
    ensures Narrowing(f.root) && NeverTaller(f.root)
    ensures forall p <- Limbs(f.branchGeos) ::
              && (p.childCount > 0 ==> p.childCount <= maxDepth - p.depth && p.foliage == Bare)
              && (p.depth == maxDepth - 1 ==> p.childCount == 0)
              && (p.depth == maxDepth ==> p.foliage == Bare)
              && Positive(p.scale)
  {
    LimbsOfFooted(BaseHeight, Grow(Config, maxDepth, RootScale, rng, 0).pieces);
    Branches(maxDepth, rng);
  }

  /** The leaf geometry of a fruit tree assembled from the recursion on
      `rng`: exactly the leafy entries of its branch list, each childless
      and carrying one leaf, at most one per childless entry. */
  lemma LeafList(maxDepth: int, rng: Rng, f: Fruit)
    requires Uniform(rng)
    requires f.root == Grow(Config, maxDepth, RootScale, rng, 0).root
    requires f.branchGeos == Footed(BaseHeight, Grow(Config, maxDepth, RootScale, rng, 0).pieces)
    requires f.leafGeos == LeafPieces(Grow(Config, maxDepth, RootScale, rng, 0).pieces)
    ensures f.leafGeos == LeafPieces(Limbs(f.branchGeos))
    ensures |f.leafGeos| <= Childless(Limbs(f.branchGeos))
    ensures forall p <- f.leafGeos :: p in Limbs(f.branchGeos) && p.childCount == 0 && p.foliage == Leaf
  {
    var g := Grow(Config, maxDepth, RootScale, rng, 0);
    LimbsOfFooted(BaseHeight, g.pieces);
    Branches(maxDepth, rng);
    LeavesAtMostChildless(g.pieces);
  }

  /** The branch and leaf facts of a fruit tree's recursion: per-call
      bounds, positive scales, leaves only on childless branches, and the
      scale trend of base 0.95. */
  lemma Branches(maxDepth: int, rng: Rng)
    requires Uniform(rng)
    ensures forall p <- Grow(Config, maxDepth, RootScale, rng, 0).pieces ::
              && (p.childCount > 0 ==> p.childCount <= maxDepth - p.depth && p.foliage == Bare)
              && (p.depth == maxDepth - 1 ==> p.childCount == 0)
              && (p.depth == maxDepth ==> p.foliage == Bare)
              && Positive(p.scale)
    ensures forall p <- LeafPieces(Grow(Config, maxDepth, RootScale, rng, 0).pieces) ::
              p in Grow(Config, maxDepth, RootScale, rng, 0).pieces && p.childCount == 0 && p.foliage == Leaf
    ensures Narrowing(Grow(Config, maxDepth, RootScale, rng, 0).root)
    ensures NeverTaller(Grow(Config, maxDepth, RootScale, rng, 0).root)
  {
    var g := Grow(Config, maxDepth, RootScale, rng, 0);
    LeavesAtMostChildless(g.pieces);
    ScaleTrend(Config, maxDepth, g.root);
  }
}

=== FILE: generation.dfy ===
/** The common entry of the four recursive generators: a root segment at
    depth 1, `addLayer` on it, and the flat branch list that results. */
module Generation {
  import opened Draws
  import opened Geometry
  import opened Branching
  import opened Listing

  /** Every `generate` starts the recursion at depth 1. */
  const StartDepth: nat := 1

  /** The segment tree, its pre-order branch list, and the cursor after
      the last draw the recursion read. */
  datatype Grown = Grown(root: Segment, pieces: seq<Piece>, next: nat)

  /** Root with scale `rootScale`, then `addLayer(root, 1, maxDepth)` from draw `k`. */
  function Grow(v: Variant, maxDepth: int, rootScale: Vec3, rng: Rng, k: nat): (t: Grown)
    requires Uniform(rng) && WellFormed(v) && Positive(rootScale)
    ensures k <= t.next
    ensures Valid(v, maxDepth, t.root) && t.pieces == Flatten(t.root)
    ensures t.root.depth == StartDepth && t.root.scale == rootScale && t.root.tilt == Zero
    ensures |t.pieces| == 1 + ChildSum(t.pieces)
    ensures forall i :: 1 <= i < |t.pieces| ==> 2 <= t.pieces[i].depth <= maxDepth - 1
    ensures forall i :: 1 <= i < |t.pieces| ==> Tilted(v, t.pieces[i].tilt)
    ensures forall p <- t.pieces :: PieceOk(v, maxDepth, p) && Positive(p.scale)
    ensures v.leafChance >= 1.0 ==>
              forall p <- t.pieces :: p.depth != maxDepth && p.childCount == 0 ==> p.foliage != Bare
    ensures maxDepth == StartDepth ==> t.pieces == [Piece(StartDepth, rootScale, Zero, 0, Bare)] && t.next == k
  {
    var g := AddLayer(v, rng, StartDepth, maxDepth, rootScale, k);
    var root := Segment(StartDepth, rootScale, Zero, g.children, g.foliage);
    var ps := Flatten(root);
    RootListing(v, maxDepth, root);
    Grown(root, ps, g.next)
  }

  /** The listing facts `Grow` promises, for any valid tree rooted at the
      start depth with a positive scale. */
  lemma RootListing(v: Variant, maxDepth: int, root: Segment)
    requires WellFormed(v) && Valid(v, maxDepth, root)
    requires root.depth == StartDepth && Positive(root.scale)
    ensures |Flatten(root)| == 1 + ChildSum(Flatten(root))
    ensures forall i :: 1 <= i < |Flatten(root)| ==> 2 <= Flatten(root)[i].depth <= maxDepth - 1
    ensures forall i :: 1 <= i < |Flatten(root)| ==> Tilted(v, Flatten(root)[i].tilt)
    ensures forall p <- Flatten(root) :: PieceOk(v, maxDepth, p) && Positive(p.scale)
    ensures Leafy(maxDepth, root) ==>
              forall p <- Flatten(root) :: p.depth != maxDepth && p.childCount == 0 ==> p.foliage != Bare
  {
    var ps := Flatten(root);
    FlattenCount(root);
    FlattenFacts(v, maxDepth, 1, root);
    assert forall c <- root.children :: 2 <= c.depth <= maxDepth - 1;
    FlattenAllFacts(v, maxDepth, 2, root.children);
    assert ps == [PieceOf(root)] + FlattenAll(root.children);
    forall i | 1 <= i < |ps| ensures ps[i] in FlattenAll(root.children) {
      assert ps[i] == FlattenAll(root.children)[i - 1];
    }
  }

  /** A base geometry or a branch of a variant whose branch list starts
      with a fixed base cylinder. */
  datatype Geo = Footing(height: real) | Limb(piece: Piece)

  /** The branch list with the base cylinder of height `height` in front. */
  function Footed(height: real, ps: seq<Piece>): (gs: seq<Geo>)
    ensures |gs| == 1 + |ps| && gs[0] == Footing(height)
    ensures forall i :: 0 <= i < |ps| ==> gs[i + 1] == Limb(ps[i])
  {
    [Footing(height)] + seq(|ps|, i requires 0 <= i < |ps| => Limb(ps[i]))
  }

  /** The branches of a list, base geometries left out. */
  function Limbs(gs: seq<Geo>): seq<Piece> {
    if gs == [] then []
    else (if gs[0].Limb? then [gs[0].piece] else []) + Limbs(gs[1..])
  }

  /** Taking the branches back out of a footed list gives the branch list. */
  lemma {:induction false} LimbsOfFooted(height: real, ps: seq<Piece>)
    ensures Limbs(Footed(height, ps)) == ps
  {
    var gs := Footed(height, ps);
    assert gs[1..] == seq(|ps|, i requires 0 <= i < |ps| => Limb(ps[i]));
    LimbsOfWrapped(ps);
  }

  lemma {:induction false} LimbsOfWrapped(ps: seq<Piece>)
    ensures Limbs(seq(|ps|, i requires 0 <= i < |ps| => Limb(ps[i]))) == ps
  {
    var gs := seq(|ps|, i requires 0 <= i < |ps| => Limb(ps[i]));
    if ps != [] {
      assert gs[1..] == seq(|ps[1..]|, i requires 0 <= i < |ps[1..]| => Limb(ps[1..][i]));
      LimbsOfWrapped(ps[1..]);
      assert ps == [ps[0]] + ps[1..];
    }
  }

  /** Whether every branch of a tree is at least as tall as its parent. */
  predicate NeverShorter(s: Segment)
    decreases s
  {
    forall c <- s.children :: c.scale.y >= s.scale.y && NeverShorter(c)
  }

  /** Whether every branch of a tree is at most as tall as its parent. */
  predicate NeverTaller(s: Segment)
    decreases s
  {
    forall c <- s.children :: c.scale.y <= s.scale.y && NeverTaller(c)
  }

  /** Whether every branch of a tree is strictly narrower than its parent. */
  predicate Narrowing(s: Segment)
    decreases s
  {
    forall c <- s.children :: c.scale.x < s.scale.x && c.scale.z < s.scale.z && Narrowing(c)
  }

  /** In a valid tree with positive root scale every child is narrower than
      its parent; its height grows with a base of at least one and shrinks
      with a base of at most one. */
  lemma {:induction false} ScaleTrend(v: Variant, maxDepth: int, s: Segment)
    requires WellFormed(v) && Valid(v, maxDepth, s) && Positive(s.scale)
    decreases s
    ensures Narrowing(s)
    ensures v.heightBase >= 1.0 ==> NeverShorter(s)
    ensures v.heightBase <= 1.0 ==> NeverTaller(s)
  {
    forall c <- s.children
      ensures c.scale.x < s.scale.x && c.scale.z < s.scale.z && Narrowing(c)
      ensures v.heightBase >= 1.0 ==> c.scale.y >= s.scale.y && NeverShorter(c)
      ensures v.heightBase <= 1.0 ==> c.scale.y <= s.scale.y && NeverTaller(c)
    {
      ShrinkNarrows(v, s.scale, s.depth);
      if v.heightBase >= 1.0 {
        ShrinkKeepsHeight(v, s.scale, s.depth);
      }
      if v.heightBase <= 1.0 {
        ShrinkLowersHeight(v, s.scale, s.depth);
      }
      ScaleTrend(v, maxDepth, c);
    }
  }
}

=== FILE: geometry.dfy ===
/** Exact-real stand-ins for the vector arithmetic the generators use. */
module Geometry {

  /** A scale, rotation or position triple. */
  datatype Vec3 = Vec3(x: real, y: real, z: real)

  const Zero: Vec3 := Vec3(0.0, 0.0, 0.0)

  /** Every component strictly positive. */
  predicate Positive(v: Vec3) {
    v.x > 0.0 && v.y > 0.0 && v.z > 0.0
  }

  /** `Math.pow(b, n)` for a natural exponent, computed exactly. */
  function Pow(b: real, n: nat): real {
    if n == 0 then 1.0 else b * Pow(b, n - 1)
  }

  /** A base of at least one never gives a power below one. */
  lemma {:induction false} PowAtLeastOne(b: real, n: nat)
    requires b >= 1.0
    ensures Pow(b, n) >= 1.0
  {
    if n > 0 {
      PowAtLeastOne(b, n - 1);
      assert b * Pow(b, n - 1) >= 1.0 * Pow(b, n - 1);
    }
  }

  /** A base in (0, 1] gives a power in (0, 1]. */
  lemma {:induction false} PowInUnit(b: real, n: nat)
    requires 0.0 < b <= 1.0
    ensures 0.0 < Pow(b, n) <= 1.0
  {
    if n > 0 {
      PowInUnit(b, n - 1);
      assert b * Pow(b, n - 1) <= 1.0 * Pow(b, n - 1);
    }
  }

  /** A positive base gives a positive power. */
  lemma {:induction false} PowPositive(b: real, n: nat)
    requires b > 0.0
    ensures Pow(b, n) > 0.0
  {
    if n > 0 {
      PowPositive(b, n - 1);
    }
  }
}

=== FILE: index_js.dfy ===
/** index.js: the top-level `generate` / `addLayer` functions. Same
    skeleton as tree.js, but the leaf test is `1 > Math.random()`, which
    every draw passes, so every childless call off the last layer leaves a
    leaf. */
module IndexJs {
  import opened Draws
  import opened Geometry
  import opened Branching
  import opened Listing
  import opened Generation

  /** index.js's constants: base 0.95, perturbations `Math.random() - 0.5`,
      leaf threshold 1, one leaf mesh per emission. */
  const Config: Variant := Variant(0.95, 1.0, 1.0, SingleLeaf)
  const RootScale: Vec3 := Vec3(1.0, 5.0, 1.0)

  /** The tree group (root and branches), the leaf group, and the cursor
      after the last draw. */
  datatype Groups = Groups(treeGroup: seq<Piece>, leafGroup: seq<Piece>, next: nat)

  /** `generate(maxDepth)` on the draws `rng`. */
  function Generate(maxDepth: int, rng: Rng): (t: Groups)
    requires Uniform(rng)
    ensures |t.treeGroup| == 1 + ChildSum(t.treeGroup)
    ensures t.treeGroup[0].depth == 1 && t.treeGroup[0].scale == RootScale
    ensures forall i :: 1 <= i < |t.treeGroup| ==> 2 <= t.treeGroup[i].depth <= maxDepth - 1
    ensures forall p <- t.treeGroup ::
              && (p.childCount > 0 ==> p.childCount <= maxDepth - p.depth && p.foliage == Bare)
              && (p.depth == maxDepth - 1 ==> p.childCount == 0)
              && (p.depth != maxDepth && p.childCount == 0 ==> p.foliage == Leaf)
    ensures forall p <- t.leafGroup :: p in t.treeGroup && p.childCount == 0
    ensures maxDepth != 1 ==> |t.leafGroup| == Childless(t.treeGroup)
    ensures maxDepth == 1 ==> |t.treeGroup| == 1 && t.leafGroup == []
  {
    var g := Grow(Config, maxDepth, RootScale, rng, 0);
    var leaves := LeafPieces(g.pieces);
    LeavesAtMostChildless(g.pieces);
    if maxDepth != 1 then
      FoliageOnChildless(maxDepth, rng);
      LeavesMatchChildless(g.pieces);
      Groups(g.pieces, leaves, g.next)
    else
      Groups(g.pieces, leaves, g.next)
  }

  /** Off `maxDepth == 1`, no segment sits on the `maxDepth` layer, so a
      segment carries a leaf exactly when it has no children. */
  lemma FoliageOnChildless(maxDepth: int, rng: Rng)
    requires Uniform(rng) && maxDepth != 1
    ensures forall p <- Grow(Config, maxDepth, RootScale, rng, 0).pieces :: p.foliage != Bare <==> p.childCount == 0
  {
    var ps := Grow(Config, maxDepth, RootScale, rng, 0).pieces;
    forall p <- ps ensures p.foliage != Bare <==> p.childCount == 0 {
      var i :| 0 <= i < |ps| && ps[i] == p;
      assert p.depth != maxDepth;
    }
  }
}

=== FILE: layers.dfy ===
/** Arithmetic shared by the two layered generators (src/simple-tree.js and
    src/pine-tree.js): leaves counted layer by layer, and the angle
    `2 * Math.PI / numShapes * (j + Math.random())` of shape `j` of a ring,
    written as a fraction of a full turn. */
module Layers {

  /** `maxDepth - l` summed over the layers `l < i`. */
  function Before(maxDepth: int, i: nat): int {
    if i == 0 then 0 else Before(maxDepth, i - 1) + (maxDepth - (i - 1))
  }

  /** Twice the sum is `i * (2 maxDepth - i + 1)`. */
  lemma {:induction false} BeforeClosedForm(maxDepth: int, i: nat)
    ensures 2 * Before(maxDepth, i) == i * (2 * maxDepth - i + 1)
  {
    if i > 0 {
      BeforeClosedForm(maxDepth, i - 1);
      assert i * (2 * maxDepth - i + 1) == (i - 1) * (2 * maxDepth - (i - 1) + 1) + 2 * (maxDepth - (i - 1));
    }
  }

  /** Over all `maxDepth` layers the sum is the triangular number. */
  lemma Triangular(maxDepth: nat)
    ensures Before(maxDepth, maxDepth) == maxDepth * (maxDepth + 1) / 2
  {
    BeforeClosedForm(maxDepth, maxDepth);
  }

  /** Up to `maxDepth` the sum is never negative. */
  lemma {:induction false} BeforeNonNegative(maxDepth: int, i: nat)
    requires i <= maxDepth
    ensures 0 <= Before(maxDepth, i)
  {
    if i > 0 {
      BeforeNonNegative(maxDepth, i - 1);
    }
  }

  /** The angle of shape `j` of `n` on a ring, for the draw `r`, as a
      fraction of a full turn. It lies in the `j`-th of `n` equal sectors. */
  function Sector(j: nat, n: nat, r: real): (a: real)
    requires j < n && 0.0 <= r < 1.0
    ensures j as real / n as real <= a < (j + 1) as real / n as real
  {
    var a := (j as real + r) / n as real;
    assert a - j as real / n as real == r / n as real;
    assert (j + 1) as real / n as real - a == (1.0 - r) / n as real;
    a
  }

  /** Distinct shapes of one ring occupy disjoint sectors. */
  lemma SectorsDisjoint(n: nat, j: nat, j': nat, r: real, r': real)
    requires j < j' < n && 0.0 <= r < 1.0 && 0.0 <= r' < 1.0
    ensures Sector(j, n, r) < Sector(j', n, r')
  {
    assert j' as real / n as real - (j + 1) as real / n as real == (j' - j - 1) as real / n as real;
  }

  /** Multiplying by a positive factor keeps an order, strictly when strict. */
  lemma MulStrict(a: real, x: real, y: real)
    requires a > 0.0 && x <= y
    ensures a * x <= a * y
    ensures x < y ==> a * x < a * y
  {
    assert a * y - a * x == a * (y - x);
  }

  /** The share `i / maxDepth` of a layer below `maxDepth` is in [0, 1). */
  lemma ShareUnit(maxDepth: nat, i: nat)
    requires i < maxDepth
    ensures 0.0 <= i as real / maxDepth as real < 1.0
  {
    var m := maxDepth as real;
    assert m / m == 1.0;
    assert m / m - i as real / m == (maxDepth - i) as real / m;
  }

  /** The share `i / maxDepth` of a layer is in [0, 1) and grows with `i`. */
  lemma ShareBounds(maxDepth: nat, i: nat, i': nat)
    requires i < i' < maxDepth
    ensures 0.0 <= i as real / maxDepth as real < i' as real / maxDepth as real < 1.0
  {
    var m := maxDepth as real;
    assert i' as real / m - i as real / m == (i' - i) as real / m;
    assert m / m == 1.0;
    assert m / m - i' as real / m == (maxDepth - i') as real / m;
  }
}

=== FILE: listing.dfy ===
/** The flat lists the generators accumulate while they recurse.

    Every copy of `addLayer` adds a branch to its list (`branchGroup.add`
    or `branchGeos.push`) before recursing into it, so the list is the
    pre-order listing of the segment tree. Leaves are added in the same
    traversal, so the leaf list is that listing filtered to the segments
    that carry foliage. */
module Listing {
  import opened Geometry
  import opened Branching

  /** A segment as one entry of the flat branch list. */
  function PieceOf(s: Segment): Piece {
    Piece(s.depth, s.scale, s.tilt, |s.children|, s.foliage)
  }

  /** Pre-order listing of a subtree: the segment, then each child's subtree in order. */
  function Flatten(s: Segment): (ps: seq<Piece>)
    decreases s
    ensures |ps| >= 1 && ps[0] == PieceOf(s)
  {
    [PieceOf(s)] + FlattenAll(s.children)
  }

  /** Pre-order listing of a sequence of sibling subtrees. */
  function FlattenAll(cs: seq<Segment>): seq<Piece>
    decreases cs
  {
    if cs == [] then [] else Flatten(cs[0]) + FlattenAll(cs[1..])
  }

  /** Total number of children recorded in a list: the branches created. */
  function ChildSum(ps: seq<Piece>): nat {
    if ps == [] then 0 else ps[0].childCount + ChildSum(ps[1..])
  }

  /** The entries that carry foliage, in list order: the leaf list. */
  function LeafPieces(ps: seq<Piece>): seq<Piece> {
    if ps == [] then []
    else (if ps[0].foliage != Bare then [ps[0]] else []) + LeafPieces(ps[1..])
  }

  /** Number of entries with no children. */
  function Childless(ps: seq<Piece>): nat {
    if ps == [] then 0
    else (if ps[0].childCount == 0 then 1 else 0) + Childless(ps[1..])
  }

  /** Every leaf mesh of every entry, in list order. */
  function Meshes(ps: seq<Piece>): seq<Clone> {
    if ps == [] then []
    else (if ps[0].foliage.Tuft? then ps[0].foliage.clones else []) + Meshes(ps[1..])
  }

  // ---------------------------------------------------------------------

  lemma {:induction false} ChildSumAppend(a: seq<Piece>, b: seq<Piece>)
    ensures ChildSum(a + b) == ChildSum(a) + ChildSum(b)
  {
    if a == [] {
      assert a + b == b;
    } else {
      assert (a + b)[1..] == a[1..] + b;
      ChildSumAppend(a[1..], b);
    }
  }

  /** The branch list holds the segment itself plus one entry per branch
      created anywhere beneath it. */
  lemma {:induction false} FlattenCount(s: Segment)
    decreases s
    ensures |Flatten(s)| == 1 + ChildSum(Flatten(s))
  {
    FlattenAllCount(s.children);
    ChildSumAppend([PieceOf(s)], FlattenAll(s.children));
    assert [PieceOf(s)][1..] == [];
  }

  lemma {:induction false} FlattenAllCount(cs: seq<Segment>)
    decreases cs
    ensures |FlattenAll(cs)| == |cs| + ChildSum(FlattenAll(cs))
  {
    if cs != [] {
      FlattenCount(cs[0]);
      FlattenAllCount(cs[1..]);
      ChildSumAppend(Flatten(cs[0]), FlattenAll(cs[1..]));
    }
  }

  /** Every entry of a valid subtree's listing is locally well-shaped, lies
      within the depth band of its root, keeps a positive scale and, for a
      leafy tree, carries foliage when it is childless; perturbations stay in
      range below a root whose own perturbation is in range. */
  lemma {:induction false} FlattenFacts(v: Variant, maxDepth: int, lo: int, s: Segment)
    requires WellFormed(v) && Valid(v, maxDepth, s)
    decreases s
    ensures forall p <- Flatten(s) :: PieceOk(v, maxDepth, p)
    ensures lo <= s.depth <= maxDepth - 1 ==> forall p <- Flatten(s) :: lo <= p.depth <= maxDepth - 1
    ensures Positive(s.scale) ==> forall p <- Flatten(s) :: Positive(p.scale)
    ensures Tilted(v, s.tilt) ==> forall p <- Flatten(s) :: Tilted(v, p.tilt)
    ensures Leafy(maxDepth, s) ==>
              forall p <- Flatten(s) :: p.depth != maxDepth && p.childCount == 0 ==> p.foliage != Bare
  {
    if Positive(s.scale) {
      forall c <- s.children ensures Positive(c.scale) {
        ShrinkNarrows(v, s.scale, s.depth);
      }
    }
    FlattenAllFacts(v, maxDepth, lo, s.children);
  }

  lemma {:induction false} FlattenAllFacts(v: Variant, maxDepth: int, lo: int, cs: seq<Segment>)
    requires WellFormed(v)
    requires forall c <- cs :: Valid(v, maxDepth, c)
    decreases cs
    ensures forall p <- FlattenAll(cs) :: PieceOk(v, maxDepth, p)
    ensures (forall c <- cs :: lo <= c.depth <= maxDepth - 1) ==>
              forall p <- FlattenAll(cs) :: lo <= p.depth <= maxDepth - 1
    ensures (forall c <- cs :: Positive(c.scale)) ==> forall p <- FlattenAll(cs) :: Positive(p.scale)
    ensures (forall c <- cs :: Tilted(v, c.tilt)) ==> forall p <- FlattenAll(cs) :: Tilted(v, p.tilt)
    ensures (forall c <- cs :: Leafy(maxDepth, c)) ==>
              forall p <- FlattenAll(cs) :: p.depth != maxDepth && p.childCount == 0 ==> p.foliage != Bare
  {
    if cs != [] {
      assert cs[0] in cs;
      assert forall c <- cs[1..] :: c in cs;
      FlattenFacts(v, maxDepth, lo, cs[0]);
      FlattenAllFacts(v, maxDepth, lo, cs[1..]);
    }
  }

  /** When foliage sits exactly on the childless entries, the leaf list is
      as long as the number of childless entries. */
  lemma {:induction false} LeavesMatchChildless(ps: seq<Piece>)
    requires forall p <- ps :: p.foliage != Bare <==> p.childCount == 0
    ensures |LeafPieces(ps)| == Childless(ps)
  {
    if ps != [] {
      assert ps[0] in ps;
      assert forall p <- ps[1..] :: p in ps;
      LeavesMatchChildless(ps[1..]);
    }
  }

  /** Leaves sit only on childless entries, so there are at most as many. */
  lemma {:induction false} LeavesAtMostChildless(ps: seq<Piece>)
    requires forall p <- ps :: p.foliage != Bare ==> p.childCount == 0
    ensures |LeafPieces(ps)| <= Childless(ps)
    ensures forall p <- LeafPieces(ps) :: p in ps && p.foliage != Bare && p.childCount == 0
  {
    if ps != [] {
      assert ps[0] in ps;
      assert forall p <- ps[1..] :: p in ps;
      LeavesAtMostChildless(ps[1..]);
    }
  }

  /** Foliage that is either nothing or a cluster of `size` well-ranged clones. */
  predicate BareOrCluster(size: nat, f: Foliage) {
    f == Bare || (f.Tuft? && |f.clones| == size && forall t :: 0 <= t < size ==> CloneOk(size, t, f.clones[t]))
  }

  /** When every foliage is Bare or a cluster of `size` clones, the mesh
      list holds exactly `size` meshes per leaf entry. */
  lemma {:induction false} MeshCount(ps: seq<Piece>, size: nat)
    requires forall p <- ps :: p.foliage == Bare || (p.foliage.Tuft? && |p.foliage.clones| == size)
    ensures |Meshes(ps)| == size * |LeafPieces(ps)|
  {
    if ps != [] {
      assert ps[0] in ps;
      assert forall p <- ps[1..] :: p in ps;
      MeshCount(ps[1..], size);
      var n := |LeafPieces(ps[1..])|;
      if ps[0].foliage == Bare {
        assert LeafPieces(ps) == LeafPieces(ps[1..]);
        assert Meshes(ps) == Meshes(ps[1..]);
      } else {
        assert LeafPieces(ps) == [ps[0]] + LeafPieces(ps[1..]);
        assert Meshes(ps) == ps[0].foliage.clones + Meshes(ps[1..]);
        assert |Meshes(ps)| == size + size * n;
        assert |LeafPieces(ps)| == 1 + n;
        Distribute(size, n);
      }
    }
  }

  lemma Distribute(size: nat, n: nat)
    ensures size * (1 + n) == size + size * n
  {
  }

  /** Every mesh of a list of Bare-or-cluster foliage has a valid material. */
  lemma {:induction false} MeshMaterials(ps: seq<Piece>, size: nat)
    requires forall p <- ps :: BareOrCluster(size, p.foliage)
    ensures forall c <- Meshes(ps) :: 0 <= c.material < MaterialCount
  {
    if ps != [] {
      assert ps[0] in ps;
      assert forall p <- ps[1..] :: p in ps;
      MeshMaterials(ps[1..], size);
      var f := ps[0].foliage;
      if f.Tuft? {
        forall c <- f.clones ensures 0 <= c.material < MaterialCount {
          var t :| 0 <= t < |f.clones| && f.clones[t] == c;
          assert CloneOk(size, t, f.clones[t]);
        }
      }
    }
  }
}

=== FILE: pine_tree.dfy ===
/** src/pine-tree.js: the `PineTree` class. `generate` stacks `maxDepth`
    layers of tilted branch clones on a trunk of height 35; layer `i` holds
    `(maxDepth - i) + 5 + floor(5 * Math.random())` clones, narrower,
    flatter and higher the further up the layer is. */
module PineTree {
  import opened Draws
  import opened Geometry
  import opened Layers

  /** `this.branchHeight`. */
  const BranchHeight: real := 35.0
  /** `startHeight = 3 * branchHeight / 8`. */
  const StartHeight: real := 3.0 * BranchHeight / 8.0
  /** `scaleFactor`, the y scale of the lowest layer. */
  const ScaleFactor: real := 0.35

  /** One clone of a layer: its layer, its index in the layer and the size
      of the layer, its scale, its angle about y as a fraction of a full
      turn, its tilt about z in units of pi, and its lift along y. */
  datatype ShapeGeo = ShapeGeo(layer: nat, index: nat, count: nat, scale: Vec3, turn: real, tilt: real, lift: real)

  /** `numShapes` of layer `i` for the layer's draw `r`. */
  function ShapeCount(maxDepth: nat, i: nat, r: real): (n: nat)
    requires i < maxDepth && 0.0 <= r < 1.0
    ensures maxDepth - i + 5 <= n <= maxDepth - i + 9
  {
    var extra := (r * 5.0).Floor;
    assert 0 <= extra <= 4;
    (maxDepth - i) + 5 + extra
  }

  /** The x and z scale of layer `i`, `1 - (i/maxDepth) * 0.5`. */
  function WidthScale(maxDepth: nat, i: nat): real
    requires i < maxDepth
  {
    1.0 - (i as real / maxDepth as real) * 0.5
  }

  /** The y scale of layer `i`, `scaleFactor - scaleFactor * (1 - 0.1) * i/maxDepth`. */
  function HeightScale(maxDepth: nat, i: nat): real
    requires i < maxDepth
  {
    ScaleFactor - ScaleFactor * (1.0 - 0.1) * i as real / maxDepth as real
  }

  /** The lift of layer `i`, `startHeight + (i+1)/maxDepth * (branchHeight - startHeight)`. */
  function Lift(maxDepth: nat, i: nat): real
    requires i < maxDepth
  {
    StartHeight + (i + 1) as real / maxDepth as real * (BranchHeight - StartHeight)
  }

  /** The tilt of a clone of layer `i` in units of pi, for the draw `r`:
      `5/8 + (i/maxDepth) / 12 + r / 12`. */
  function Tilt(maxDepth: nat, i: nat, r: real): (a: real)
    requires i < maxDepth && 0.0 <= r < 1.0
    ensures 5.0 / 8.0 <= a < 19.0 / 24.0
  {
    ShareUnit(maxDepth, i);
    5.0 / 8.0 + (i as real / maxDepth as real) / 12.0 + r / 12.0
  }

  /** What every clone of a pine satisfies: a layer below `maxDepth` whose
      size is within the range the count draw allows, an index in that
      layer, the layer's scale and lift, an angle in its own sector and a
      tilt in [5/8, 19/24) of pi. */
  predicate ShapeOk(maxDepth: nat, g: ShapeGeo) {
    && g.layer < maxDepth
    && maxDepth - g.layer + 5 <= g.count <= maxDepth - g.layer + 9
    && g.index < g.count
    && g.scale == Vec3(WidthScale(maxDepth, g.layer), HeightScale(maxDepth, g.layer), WidthScale(maxDepth, g.layer))
    && g.lift == Lift(maxDepth, g.layer)
    && g.index as real / g.count as real <= g.turn < (g.index + 1) as real / g.count as real
    && 5.0 / 8.0 <= g.tilt < 19.0 / 24.0
  }

  /** Clone `j` of the `n` clones of layer `i`, from its two draws: the
      angle draw, then the tilt draw. With a layer size the count draw can
      produce, the clone has every property of `ShapeOk`. */
  function Shape(maxDepth: nat, i: nat, j: nat, n: nat, r1: real, r2: real): (g: ShapeGeo)
    requires i < maxDepth && j < n && 0.0 <= r1 < 1.0 && 0.0 <= r2 < 1.0
    ensures g.layer == i && g.index == j && g.count == n
    ensures maxDepth - i + 5 <= n <= maxDepth - i + 9 ==> ShapeOk(maxDepth, g)
  {
    var w := WidthScale(maxDepth, i);
    ShapeGeo(i, j, n, Vec3(w, HeightScale(maxDepth, i), w), Sector(j, n, r1), Tilt(maxDepth, i, r2), Lift(maxDepth, i))
  }

  /** Clone `t` of a pine grown from the cursor `k` is in range and was
      built from its own draws: layer `i` reads its count draw, then two
      draws per clone, so clone `t` of layer `i` reads its angle draw at
      `k + i + 1 + 2t` and its tilt draw right after, and the first clone of
      a layer sits right after that layer's count draw. */
  predicate Drawn(maxDepth: nat, rng: Rng, k: nat, t: nat, g: ShapeGeo)
    requires Uniform(rng)
  {
    && ShapeOk(maxDepth, g)
    && g.turn == Sector(g.index, g.count, rng(k + g.layer + 1 + 2 * t))
    && g.tilt == Tilt(maxDepth, g.layer, rng(k + g.layer + 2 + 2 * t))
    && (g.index == 0 ==> g.count == ShapeCount(maxDepth, g.layer, rng(k + g.layer + 2 * t)))
  }

  /** `b` is the clone the nested loops push right after `a`: the next
      index of the same layer, or the first of the next layer once `a`
      closed its layer. */
  predicate Follows(a: ShapeGeo, b: ShapeGeo) {
    || (b.layer == a.layer && b.count == a.count && b.index == a.index + 1)
    || (b.layer == a.layer + 1 && a.index == a.count - 1 && b.index == 0)
  }

  // ---------------------------------------------------------------------
  // Facts about the layers

  /** Every layer's x/z scale lies in (0.5, 1]; the first layer's is 1. */
  lemma WidthScaleRange(maxDepth: nat, i: nat)
    requires i < maxDepth
    ensures 0.5 < WidthScale(maxDepth, i) <= 1.0
    ensures i == 0 ==> WidthScale(maxDepth, i) == 1.0
  {
    ShareUnit(maxDepth, i);
  }

  /** Every layer's y scale lies in (0.035, 0.35]; the first layer's is 0.35. */
  lemma HeightScaleRange(maxDepth: nat, i: nat)
    requires i < maxDepth
    ensures 0.035 < HeightScale(maxDepth, i) <= 0.35
    ensures i == 0 ==> HeightScale(maxDepth, i) == ScaleFactor
  {
    ShareUnit(maxDepth, i);
    assert ScaleFactor * (1.0 - 0.1) * i as real / maxDepth as real == 0.315 * (i as real / maxDepth as real);
  }

  /** Every layer sits above the start height and at most at the trunk's
      top, which the last layer reaches. */
  lemma LiftRange(maxDepth: nat, i: nat)
    requires i < maxDepth
    ensures StartHeight < Lift(maxDepth, i) <= BranchHeight
    ensures i == maxDepth - 1 ==> Lift(maxDepth, i) == BranchHeight
  {
    var m := maxDepth as real;
    var q := (i + 1) as real / m;
    if i + 1 < maxDepth {
      ShareBounds(maxDepth, i, i + 1);
    } else {
      assert (i + 1) as real == m;
      assert m / m == 1.0;
    }
    assert 0.0 < q <= 1.0;
    MulStrict(BranchHeight - StartHeight, 0.0, q);
    MulStrict(BranchHeight - StartHeight, q, 1.0);
  }

  /** Higher layers are narrower: the x/z scale is in (0.5, 1] and strictly
      decreasing. */
  lemma WidthScaleFalls(maxDepth: nat, i: nat, i': nat)
    requires i < i' < maxDepth
    ensures 1.0 >= WidthScale(maxDepth, i) > WidthScale(maxDepth, i') > 0.5
  {
    ShareBounds(maxDepth, i, i');
  }

  /** Higher layers are flatter: the y scale is in (0.035, 0.35] and
      strictly decreasing. */
  lemma HeightScaleFalls(maxDepth: nat, i: nat, i': nat)
    requires i < i' < maxDepth
    ensures 0.35 >= HeightScale(maxDepth, i) > HeightScale(maxDepth, i') > 0.035
  {
    ShareBounds(maxDepth, i, i');
    var m := maxDepth as real;
    assert ScaleFactor * (1.0 - 0.1) * i as real / m == 0.315 * (i as real / m);
    assert ScaleFactor * (1.0 - 0.1) * i' as real / m == 0.315 * (i' as real / m);
  }

  /** Higher layers sit higher, and the last layer reaches the trunk's top. */
  lemma LiftRises(maxDepth: nat, i: nat, i': nat)
    requires i < i' < maxDepth
    ensures Lift(maxDepth, i) < Lift(maxDepth, i')
    ensures Lift(maxDepth, maxDepth - 1) == BranchHeight
  {
    var m := maxDepth as real;
    assert (i' + 1) as real / m - (i + 1) as real / m == (i' - i) as real / m;
    MulStrict(BranchHeight - StartHeight, (i + 1) as real / m, (i' + 1) as real / m);
    assert m / m == 1.0;
  }

  // ---------------------------------------------------------------------
  // The generator

  /** A list of clones the loops could have pushed so far from the cursor
      `k`: each clone built from its own draws, each following the one
      before, the first at layer 0 index 0. */
  predicate Pushed(maxDepth: nat, rng: Rng, k: nat, s: seq<ShapeGeo>)
    requires Uniform(rng)
  {
    && (forall t :: 0 <= t < |s| ==> Drawn(maxDepth, rng, k, t, s[t]))
    && (forall t :: 0 < t < |s| ==> Follows(s[t - 1], s[t]))
    && (s != [] ==> s[0].layer == 0 && s[0].index == 0)
  }

  /** Appending the clones of layer `i` to a pushed list that closes the
      layer below keeps it pushed: the new clones are drawn at their
      positions, open at index 0 and follow one another. */
  lemma Extend(maxDepth: nat, i: nat, rng: Rng, k: nat, s: seq<ShapeGeo>, s': seq<ShapeGeo>)
    requires Uniform(rng) && Pushed(maxDepth, rng, k, s)
    requires |s| < |s'| && s'[..|s|] == s
    requires s == [] <==> i == 0
    requires i > 0 ==> s[|s| - 1].layer == i - 1 && s[|s| - 1].index == s[|s| - 1].count - 1
    requires s'[|s|].layer == i && s'[|s|].index == 0
    requires forall t :: |s| <= t < |s'| ==> Drawn(maxDepth, rng, k, t, s'[t])
    requires forall t :: |s| < t < |s'| ==> Follows(s'[t - 1], s'[t])
    ensures Pushed(maxDepth, rng, k, s')
  {
    assert forall t :: 0 <= t < |s| ==> s'[t] == s[t];
  }

  /** One pass of the inner loop: clone `j` of the `n` clones of layer `i`
      reads its angle draw and its tilt draw at the cursor and is appended;
      nothing before it changes. */
  method PushClone(maxDepth: nat, i: nat, j: nat, n: nat, rng: Rng, k: nat, s: seq<ShapeGeo>, next: nat)
    returns (s': seq<ShapeGeo>, next': nat)
    requires Uniform(rng) && i < maxDepth && j < n
    requires maxDepth - i + 5 <= n <= maxDepth - i + 9
    requires next == k + i + 1 + 2 * |s|
    requires j == 0 ==> n == ShapeCount(maxDepth, i, rng(k + i + 2 * |s|))
    ensures |s'| == |s| + 1 && s'[..|s|] == s && next' == next + 2
    ensures s'[|s|].layer == i && s'[|s|].index == j && s'[|s|].count == n
    ensures Drawn(maxDepth, rng, k, |s|, s'[|s|])
  {
    var clone := Shape(maxDepth, i, j, n, rng(next), rng(next + 1));
    s' := s + [clone];
    next' := next + 2;
  }

  /** One pass of the outer loop: layer `i` reads its count draw and
      appends between `maxDepth - i + 5` and `maxDepth - i + 9` clones,
      each drawn at its position, opening at index 0, following one another
      and closing the layer; nothing before them changes. */
  method Ring(maxDepth: nat, i: nat, rng: Rng, k: nat, s: seq<ShapeGeo>, next: nat)
    returns (s': seq<ShapeGeo>, next': nat)
    requires Uniform(rng) && i < maxDepth && next == k + i + 2 * |s|
    ensures |s| + (maxDepth - i + 5) <= |s'| <= |s| + (maxDepth - i + 9) && s'[..|s|] == s
    ensures next' == k + (i + 1) + 2 * |s'|
    ensures forall t :: |s| <= t < |s'| ==> s'[t].layer == i && Drawn(maxDepth, rng, k, t, s'[t])
    ensures s'[|s|].index == 0 && s'[|s'| - 1].index == s'[|s'| - 1].count - 1
    ensures forall t :: |s| < t < |s'| ==> Follows(s'[t - 1], s'[t])
  {
    var numShapes := ShapeCount(maxDepth, i, rng(next));
    s' := s;
    next' := next + 1;
    var j: nat := 0;
    while j < numShapes
      invariant j <= numShapes && |s'| == |s| + j && s'[..|s|] == s
      invariant next' == k + (i + 1) + 2 * |s'|
      invariant numShapes == ShapeCount(maxDepth, i, rng(k + i + 2 * |s|))
      invariant forall t :: |s| <= t < |s'| ==> s'[t].layer == i && s'[t].index == t - |s| && s'[t].count == numShapes
      invariant forall t :: |s| <= t < |s'| ==> Drawn(maxDepth, rng, k, t, s'[t])
    {
      s', next' := PushClone(maxDepth, i, j, numShapes, rng, k, s', next');
      j := j + 1;
    }
  }

  /** `PineTree.generate(maxDepth)` on the draws `rng` from `k`: the clone
      geometries in the order they are pushed. */
  method Generate(maxDepth: int, rng: Rng, k: nat) returns (leafGeos: seq<ShapeGeo>, next: nat)
    requires Uniform(rng)
    ensures maxDepth <= 0 ==> leafGeos == [] && next == k
    ensures maxDepth > 0 ==>
              && 0 < |leafGeos|
              && Before(maxDepth, maxDepth) + 5 * maxDepth <= |leafGeos| <= Before(maxDepth, maxDepth) + 9 * maxDepth
              && next == k + maxDepth + 2 * |leafGeos|
              && leafGeos[0].layer == 0 && leafGeos[0].index == 0
              && leafGeos[|leafGeos| - 1].layer == maxDepth - 1
              && leafGeos[|leafGeos| - 1].index == leafGeos[|leafGeos| - 1].count - 1
              && (forall t :: 0 <= t < |leafGeos| ==> Drawn(maxDepth, rng, k, t, leafGeos[t]))
              && (forall t :: 0 < t < |leafGeos| ==> Follows(leafGeos[t - 1], leafGeos[t]))
  {
    leafGeos := [];
    next := k;
    if maxDepth <= 0 {
      return;
    }
    var m: nat := maxDepth;
    var i: nat := 0;
    while i < m
      invariant i <= m
      invariant Before(m, i) + 5 * i <= |leafGeos| <= Before(m, i) + 9 * i
      invariant next == k + i + 2 * |leafGeos|
      invariant i == 0 <==> leafGeos == []
      invariant Pushed(m, rng, k, leafGeos)
      invariant i > 0 ==> leafGeos[|leafGeos| - 1].layer == i - 1
      invariant i > 0 ==> leafGeos[|leafGeos| - 1].index == leafGeos[|leafGeos| - 1].count - 1
    {
      var grown;
      grown, next := Ring(m, i, rng, k, leafGeos, next);
      Extend(m, i, rng, k, leafGeos, grown);
      leafGeos := grown;
      i := i + 1;
    }
    BeforeNonNegative(m, m);
  }
}

=== FILE: simple_tree.dfy ===
/** src/simple-tree.js: the `SimpleTree` class. A trunk of height 20 and
    two small branches make three fixed branch geometries; `generate` then
    places leaves in `maxDepth` layers, layer `i` holding `maxDepth - i`
    leaves on a ring whose radius shrinks and whose height rises with `i`. */
module SimpleTree {
  import opened Draws
  import opened Geometry
  import opened Layers

  /** `this.branchHeight`. */
  const BranchHeight: real := 20.0

  /** A branch geometry: uniform scale factor, rotation about z as a
      fraction of a full turn, and extra lift along y. */
  datatype BranchGeo = BranchGeo(scale: real, turnZ: real, lift: real)

  /** A leaf geometry: its layer and index within the layer, the ring radius
      and height of the layer, the rotation amount `rotationAmt` as a fraction
      of a full turn, and its scale factors. The code translates the leaf to
      the point at that angle and radius and then scales the geometry about
      the origin, so when the x and z factors differ the placed leaf's angle
      and distance from the axis are not exactly `turn` and `radius`. */
  datatype LeafGeo = LeafGeo(layer: nat, index: nat, radius: real, height: real, turn: real, scale: Vec3)

  /** The branch geometries: the constructor's trunk, lifted by half its
      height, then the two small branches `generate` pushes, scaled by 0.3,
      turned by 1/8 and -1/16 of a turn and lifted by h/4 + h/20 and h/4. */
  function BranchGeos(): (bs: seq<BranchGeo>)
    ensures |bs| == 3
    ensures bs[0].scale == 1.0 && bs[1].scale == 0.3 && bs[2].scale == 0.3
    ensures bs[1].lift > bs[2].lift > 0.0
  {
    [ BranchGeo(1.0, 0.0, BranchHeight / 2.0),
      BranchGeo(0.3, 1.0 / 8.0, BranchHeight / 4.0 + BranchHeight / 20.0),
      BranchGeo(0.3, -1.0 / 16.0, BranchHeight / 4.0) ]
  }

  // ---------------------------------------------------------------------
  // Per-layer quantities

  /** Position in the leaf list of leaf `j` of layer `i`: layer `l` holds
      `numShapes = maxDepth - l` leaves. */
  function Slot(maxDepth: int, i: nat, j: nat): int {
    Before(maxDepth, i) + j
  }

  /** Ring radius of layer `i`, `(h/4) * (1 - (i+1)/maxDepth)`. */
  function Radius(maxDepth: nat, i: nat): real
    requires i < maxDepth
  {
    (BranchHeight / 4.0) * (1.0 - (i + 1) as real / maxDepth as real)
  }

  /** Height of layer `i`, `h/2 + h/5 + (h * 4/5 / maxDepth) * i`. */
  function Height(maxDepth: nat, i: nat): real
    requires i < maxDepth
  {
    BranchHeight / 2.0 + BranchHeight / 5.0 + (BranchHeight * (4.0 / 5.0) / maxDepth as real) * i as real
  }

  /** Leaf `j` of layer `i`, from its three draws: rotation amount, x scale, z scale. */
  function Shape(maxDepth: nat, i: nat, j: nat, r1: real, r2: real, r3: real): (g: LeafGeo)
    requires i < maxDepth && j < maxDepth - i
    requires 0.0 <= r1 < 1.0 && 0.0 <= r2 < 1.0 && 0.0 <= r3 < 1.0
    ensures g.layer == i && g.index == j
    ensures j as real / (maxDepth - i) as real <= g.turn < (j + 1) as real / (maxDepth - i) as real
    ensures 0.875 <= g.scale.x < 1.125 && g.scale.y == 1.0 && 0.875 <= g.scale.z < 1.125
    ensures g.radius == Radius(maxDepth, i) && g.height == Height(maxDepth, i)
  {
    LeafGeo(i, j, Radius(maxDepth, i), Height(maxDepth, i), Sector(j, maxDepth - i, r1),
            Vec3(1.0 + Centered(r2) / 4.0, 1.0, 1.0 + Centered(r3) / 4.0))
  }

  /** The leaf at slot `Slot(maxDepth, i, j)`, reading its three draws from
      the position that slot gives in the stream starting at `k`. */
  function ShapeAt(maxDepth: nat, i: nat, j: nat, rng: Rng, k: nat): LeafGeo
    requires Uniform(rng) && i < maxDepth && j < maxDepth - i
  {
    BeforeNonNegative(maxDepth, i);
    var t := k + 3 * Slot(maxDepth, i, j);
    Shape(maxDepth, i, j, rng(t), rng(t + 1), rng(t + 2))
  }

  // ---------------------------------------------------------------------
  // Facts about the layers

  /** Every layer's ring radius lies in [0, 5), the last layer's is zero. */
  lemma RadiusRange(maxDepth: nat, i: nat)
    requires i < maxDepth
    ensures 0.0 <= Radius(maxDepth, i) < BranchHeight / 4.0
    ensures i == maxDepth - 1 ==> Radius(maxDepth, i) == 0.0
  {
    var m := maxDepth as real;
    var q := (i + 1) as real / m;
    if i + 1 < maxDepth { ShareBounds(maxDepth, i, i + 1); }
    else { assert (i + 1) as real == m; assert m / m == 1.0; }
    assert 0.0 < q <= 1.0;
  }

  /** Every layer's ring height lies in [14, 30); the first layer's is 14. */
  lemma HeightRange(maxDepth: nat, i: nat)
    requires i < maxDepth
    ensures 14.0 <= Height(maxDepth, i) < 30.0
    ensures i == 0 ==> Height(maxDepth, i) == 14.0
  {
    var step := BranchHeight * (4.0 / 5.0) / maxDepth as real;
    assert step > 0.0 && step * maxDepth as real == 16.0;
    MulStrict(step, 0.0, i as real);
    MulStrict(step, i as real, maxDepth as real);
  }

  /** Layers shrink toward the top: the radius is non-negative, strictly
      decreasing in the layer, and zero on the last layer. */
  lemma RadiusShrinks(maxDepth: nat, i: nat, i': nat)
    requires i < i' < maxDepth
    ensures Radius(maxDepth, i) > Radius(maxDepth, i') >= 0.0
    ensures Radius(maxDepth, maxDepth - 1) == 0.0
  {
    var m := maxDepth as real;
    assert (i + 1) as real / m < (i' + 1) as real / m by {
      assert (i' + 1) as real / m - (i + 1) as real / m == (i' - i) as real / m;
    }
    assert (i' + 1) as real / m <= 1.0;
    assert maxDepth as real / m == 1.0;
  }

  /** Layers rise: the height strictly increases and stays in [14, 30). */
  lemma HeightRises(maxDepth: nat, i: nat, i': nat)
    requires i < i' < maxDepth
    ensures Height(maxDepth, i) < Height(maxDepth, i')
    ensures 14.0 <= Height(maxDepth, i) && Height(maxDepth, i') < 30.0
  {
    var step := BranchHeight * (4.0 / 5.0) / maxDepth as real;
    assert step > 0.0 && step * maxDepth as real == 16.0;
    MulStrict(step, 0.0, i as real);
    MulStrict(step, i as real, i' as real);
    MulStrict(step, i' as real, maxDepth as real);
  }

  // ---------------------------------------------------------------------
  // The generator

  /** `SimpleTree.generate(maxDepth)` together with the constructor's trunk,
      on the draws `rng` from `k`: the branch geometries and the leaf
      geometries in the order they are pushed. */
  method Generate(maxDepth: int, rng: Rng, k: nat)
    returns (branchGeos: seq<BranchGeo>, leafGeos: seq<LeafGeo>, next: nat)
    requires Uniform(rng)
    ensures |branchGeos| == 3
    ensures |leafGeos| == if maxDepth > 0 then maxDepth * (maxDepth + 1) / 2 else 0
    ensures next == k + 3 * |leafGeos|
    ensures forall i: nat, j: nat :: i < maxDepth && j < maxDepth - i ==>
              0 <= Slot(maxDepth, i, j) < |leafGeos| && leafGeos[Slot(maxDepth, i, j)] == ShapeAt(maxDepth, i, j, rng, k)
  {
    branchGeos := BranchGeos();
    leafGeos := [];
    next := k;
    if maxDepth <= 0 {
      return;
    }
    var m: nat := maxDepth;
    var i: nat := 0;
    while i < m
      invariant i <= m
      invariant |leafGeos| == Before(m, i) && next == k + 3 * |leafGeos|
      invariant forall a: nat, b: nat :: a < i && b < m - a ==>
                  0 <= Slot(m, a, b) < |leafGeos| && leafGeos[Slot(m, a, b)] == ShapeAt(m, a, b, rng, k)
    {
      BeforeNonNegative(m, i + 1);
      var numShapes := m - i;
      var j: nat := 0;
      while j < numShapes
        invariant j <= numShapes
        invariant |leafGeos| == Before(m, i) + j && next == k + 3 * |leafGeos|
        invariant forall a: nat, b: nat :: a < i && b < m - a ==>
                    0 <= Slot(m, a, b) < |leafGeos| && leafGeos[Slot(m, a, b)] == ShapeAt(m, a, b, rng, k)
        invariant forall b: nat :: b < j ==>
                    0 <= Slot(m, i, b) < |leafGeos| && leafGeos[Slot(m, i, b)] == ShapeAt(m, i, b, rng, k)
      {
        var leaf := Shape(m, i, j, rng(next), rng(next + 1), rng(next + 2));
        assert leaf == ShapeAt(m, i, j, rng, k);
        leafGeos := leafGeos + [leaf];
        next := next + 3;
        j := j + 1;
      }
      i := i + 1;
    }
    Triangular(m);
  }
}

=== FILE: tree_js.dfy ===
/** tree.js: the `Tree` class. Its constructor makes a box root of scale
    (1, 5, 1) and `generate` adds it to the branch group and recurses from
    depth 1. Children grow with height factor 0.95^depth; a childless call
    adds one leaf when `0.7 > Math.random()`. */
module TreeJs {
  import opened Draws
  import opened Geometry
  import opened Branching
  import opened Listing
  import opened Generation

  /** tree.js's constants: base 0.95, perturbations `Math.random() - 0.5`,
      leaf threshold 0.7, one leaf mesh per emission. */
  const Config: Variant := Variant(0.95, 1.0, 0.7, SingleLeaf)
  const RootScale: Vec3 := Vec3(1.0, 5.0, 1.0)

  /** The branch and leaf groups `generate` fills, and the cursor after the last draw. */
  datatype Groups = Groups(branchGroup: seq<Piece>, leafGroup: seq<Piece>, next: nat)

  /** `Tree.generate(scene, maxDepth)` on the draws `rng`. */
  function Generate(maxDepth: int, rng: Rng): (t: Groups)
    requires Uniform(rng)
    ensures |t.branchGroup| == 1 + ChildSum(t.branchGroup)
    ensures t.branchGroup[0].depth == 1 && t.branchGroup[0].scale == RootScale
    ensures forall i :: 1 <= i < |t.branchGroup| ==> 2 <= t.branchGroup[i].depth <= maxDepth - 1
    ensures forall p <- t.branchGroup ::
              && (p.childCount > 0 ==> p.childCount <= maxDepth - p.depth && p.foliage == Bare)
              && (p.depth >= maxDepth - 1 ==> p.childCount == 0 && LeafMeshes(p.foliage) <= 1)
              && (p.depth == maxDepth ==> p.foliage == Bare)
              && Positive(p.scale)
    ensures forall p <- t.leafGroup :: p in t.branchGroup && p.childCount == 0 && p.foliage == Leaf
    ensures |t.leafGroup| <= Childless(t.branchGroup)
    ensures maxDepth == 1 ==> |t.branchGroup| == 1 && t.leafGroup == [] && t.next == 0
  {
    var g := Grow(Config, maxDepth, RootScale, rng, 0);
    var t := Groups(g.pieces, LeafPieces(g.pieces), g.next);
    Grouped(maxDepth, rng, t);
    LeafGroup(maxDepth, rng, t);
    t
  }

  /** The branch group filled from the recursion on `rng` is its listing:
      the root first, one entry per created child, each within its call's bounds. */
  lemma Grouped(maxDepth: int, rng: Rng, t: Groups)
    requires Uniform(rng)
    requires t.branchGroup == Grow(Config, maxDepth, RootScale, rng, 0).pieces
    requires t.leafGroup == LeafPieces(t.branchGroup)
    requires t.next == Grow(Config, maxDepth, RootScale, rng, 0).next
    ensures |t.branchGroup| == 1 + ChildSum(t.branchGroup)
    ensures t.branchGroup[0].depth == 1 && t.branchGroup[0].scale == RootScale
    ensures forall i :: 1 <= i < |t.branchGroup| ==> 2 <= t.branchGroup[i].depth <= maxDepth - 1
    ensures forall p <- t.branchGroup ::
              && (p.childCount > 0 ==> p.childCount <= maxDepth - p.depth && p.foliage == Bare)
              && (p.depth >= maxDepth - 1 ==> p.childCount == 0 && LeafMeshes(p.foliage) <= 1)
              && (p.depth == maxDepth ==> p.foliage == Bare)
              && Positive(p.scale)
    ensures maxDepth == 1 ==> |t.branchGroup| == 1 && t.leafGroup == [] && t.next == 0
  {
  }

  /** The leaf group filled from the recursion on `rng` holds only
      childless single-leaf entries of the branch group, at most one per
      childless entry. */
  lemma LeafGroup(maxDepth: int, rng: Rng, t: Groups)
    requires Uniform(rng)
    requires t.branchGroup == Grow(Config, maxDepth, RootScale, rng, 0).pieces
    requires t.leafGroup == LeafPieces(t.branchGroup)
    requires t.next == Grow(Config, maxDepth, RootScale, rng, 0).next
    ensures forall p <- t.leafGroup :: p in t.branchGroup && p.childCount == 0 && p.foliage == Leaf
    ensures |t.leafGroup| <= Childless(t.branchGroup)
  {
    LeavesAtMostChildless(t.branchGroup);
  }

  /** Every branch of a tree.js tree is narrower and no taller than its parent. */
  lemma Tapering(maxDepth: int, rng: Rng)
    requires Uniform(rng)
    ensures Narrowing(Grow(Config, maxDepth, RootScale, rng, 0).root)
    ensures NeverTaller(Grow(Config, maxDepth, RootScale, rng, 0).root)
  {
    var g := Grow(Config, maxDepth, RootScale, rng, 0);
    ScaleTrend(Config, maxDepth, g.root);
  }
}

=== FILE: willow_tree.dfy ===
/** src/willow-tree.js: the `WillowTree` class. The constructor draws a
    line width for each of four leaf materials; `generate` pushes a base
    cylinder of height 1.5 and a root branch of scale (1, 3, 1) and
    recurses from depth 1. Children grow with height factor 1.025^depth and
    perturbations `1.1 * (Math.random() - 0.5)`; a childless call adds a
    cluster of 48 leaf clones when `0.8 > Math.random()`. */
module WillowTree {
  import opened Draws
  import opened Geometry
  import opened Branching
  import opened Listing
  import opened Generation

  const NumClones: nat := 48
  /** willow-tree.js's constants: base 1.025, spread 1.1, leaf threshold
      0.8, 48 clones per emission. */
  const Config: Variant := Variant(1.025, 1.1, 0.8, Cluster(NumClones))
  const RootScale: Vec3 := Vec3(1.0, 3.0, 1.0)
  const BaseHeight: real := 1.5

  /** The material line widths, the segment tree the recursion grew, the
      branch geometry list, every leaf clone mesh in the order it joins the
      leaf group, and the cursor after the last draw. */
  datatype Willow = Willow(lineWidths: seq<real>, root: Segment, branchGeos: seq<Geo>, leafGroup: seq<Clone>, next: nat)

  /** The material loop of the constructor: one line width
      `0.2 + (Math.random() - 0.5) * 0.05` per leaf colour. */
  method LineWidths(rng: Rng, k: nat) returns (widths: seq<real>, next: nat)
    requires Uniform(rng)
    ensures |widths| == MaterialCount && next == k + MaterialCount
    ensures forall i :: 0 <= i < MaterialCount ==> widths[i] == 0.2 + (rng(k + i) - 0.5) * 0.05
    ensures forall i :: 0 <= i < MaterialCount ==> 0.175 <= widths[i] < 0.225
  {
    widths := [];
    var i := 0;
    while i < MaterialCount
      invariant i <= MaterialCount && |widths| == i
      invariant forall t :: 0 <= t < i ==> widths[t] == 0.2 + (rng(k + t) - 0.5) * 0.05
      invariant forall t :: 0 <= t < i ==> 0.175 <= widths[t] < 0.225
    {
      widths := widths + [0.2 + Centered(rng(k + i)) * 0.05];
      i := i + 1;
    }
    next := k + MaterialCount;
  }

  /** The constructor's material draws followed by
      `WillowTree.generate(scene, maxDepth)`, on the draws `rng`. */
  method Build(maxDepth: int, rng: Rng) returns (w: Willow)
    requires Uniform(rng)
    ensures |w.lineWidths| == MaterialCount
    ensures forall i :: 0 <= i < MaterialCount ==> w.lineWidths[i] == 0.2 + (rng(i) - 0.5) * 0.05
    ensures forall i :: 0 <= i < MaterialCount ==> 0.175 <= w.lineWidths[i] < 0.225
    ensures |w.branchGeos| == 2 + ChildSum(Limbs(w.branchGeos))
    ensures w.branchGeos[0] == Footing(BaseHeight) && |Limbs(w.branchGeos)| == |w.branchGeos| - 1
    ensures Limbs(w.branchGeos)[0].depth == 1 && Limbs(w.branchGeos)[0].scale == RootScale
    ensures w.root == Grow(Config, maxDepth, RootScale, rng, MaterialCount).root
    ensures w.next == Grow(Config, maxDepth, RootScale, rng, MaterialCount).next
    ensures Valid(Config, maxDepth, w.root) && Limbs(w.branchGeos) == Flatten(w.root)
    ensures Narrowing(w.root) && NeverShorter(w.root)
    ensures forall i :: 1 <= i < |Limbs(w.branchGeos)| ==> 2 <= Limbs(w.branchGeos)[i].depth <= maxDepth - 1
    ensures forall p <- Limbs(w.branchGeos) ::
              && (p.childCount > 0 ==> p.childCount <= maxDepth - p.depth && p.foliage == Bare)
              && (p.depth == maxDepth - 1 ==> p.childCount == 0)
              && (p.depth == maxDepth ==> p.foliage == Bare)
              && (LeafMeshes(p.foliage) == 0 || LeafMeshes(p.foliage) == NumClones)
              && (p.foliage != Bare ==> p.childCount == 0)
    ensures forall p <- Limbs(w.branchGeos) ::
              && -0.55 <= p.tilt.x < 0.55 && -0.55 <= p.tilt.y < 0.55 && -0.55 <= p.tilt.z < 0.55
    ensures w.leafGroup == Meshes(Limbs(w.branchGeos))
    ensures |w.leafGroup| == NumClones * |LeafPieces(Limbs(w.branchGeos))|
    ensures forall c <- w.leafGroup :: 0 <= c.material < |w.lineWidths|
  {
    var widths, k := LineWidths(rng, 0);
    var g := Grow(Config, maxDepth, RootScale, rng, k);
    var branchGeos := Footed(BaseHeight, g.pieces);
    LimbsOfFooted(BaseHeight, g.pieces);
    WillowPieces(maxDepth, rng, k);
    Drooping(maxDepth, rng, k);
    w := Willow(widths, g.root, branchGeos, Meshes(g.pieces), g.next);
  }

  /** The per-entry and leaf-group facts of a willow's recursion: per-call
      bounds, foliage of 0 or 48 clones on childless entries only,
      perturbations in [-0.55, 0.55), 48 meshes per leafy entry and a valid
      material on every mesh. */
  lemma WillowPieces(maxDepth: int, rng: Rng, k: nat)
    requires Uniform(rng)
    ensures forall p <- Grow(Config, maxDepth, RootScale, rng, k).pieces ::
              && (p.childCount > 0 ==> p.childCount <= maxDepth - p.depth && p.foliage == Bare)
              && (p.depth == maxDepth - 1 ==> p.childCount == 0)
              && (p.depth == maxDepth ==> p.foliage == Bare)
              && (LeafMeshes(p.foliage) == 0 || LeafMeshes(p.foliage) == NumClones)
              && (p.foliage != Bare ==> p.childCount == 0)
              && -0.55 <= p.tilt.x < 0.55 && -0.55 <= p.tilt.y < 0.55 && -0.55 <= p.tilt.z < 0.55
    ensures |Meshes(Grow(Config, maxDepth, RootScale, rng, k).pieces)|
              == NumClones * |LeafPieces(Grow(Config, maxDepth, RootScale, rng, k).pieces)|
    ensures forall c <- Meshes(Grow(Config, maxDepth, RootScale, rng, k).pieces) :: 0 <= c.material < MaterialCount
  {
    var ps := Grow(Config, maxDepth, RootScale, rng, k).pieces;
    ClusterPieces(maxDepth, rng, k);
    MeshCount(ps, NumClones);
    MeshMaterials(ps, NumClones);
  }

  /** Each entry of a willow's branch list has no foliage or a full cluster
      of well-ranged clones, and a perturbation within [-0.55, 0.55). */
  lemma ClusterPieces(maxDepth: int, rng: Rng, k: nat)
    requires Uniform(rng)
    ensures forall p <- Grow(Config, maxDepth, RootScale, rng, k).pieces ::
              && BareOrCluster(NumClones, p.foliage)
              && -0.55 <= p.tilt.x < 0.55 && -0.55 <= p.tilt.y < 0.55 && -0.55 <= p.tilt.z < 0.55
  {
    var ps := Grow(Config, maxDepth, RootScale, rng, k).pieces;
    forall p <- ps
      ensures BareOrCluster(NumClones, p.foliage)
      ensures -0.55 <= p.tilt.x < 0.55 && -0.55 <= p.tilt.y < 0.55 && -0.55 <= p.tilt.z < 0.55
    {
      var i :| 0 <= i < |ps| && ps[i] == p;
      assert PieceOk(Config, maxDepth, p);
      if i != 0 {
        assert Tilted(Config, p.tilt);
      }
    }
  }

  /** Every branch of a willow is narrower than its parent but never shorter. */
  lemma Drooping(maxDepth: int, rng: Rng, k: nat)
    requires Uniform(rng)
    ensures Narrowing(Grow(Config, maxDepth, RootScale, rng, k).root)
    ensures NeverShorter(Grow(Config, maxDepth, RootScale, rng, k).root)
  {
    var g := Grow(Config, maxDepth, RootScale, rng, k);
    ScaleTrend(Config, maxDepth, g.root);
  }
}
